=== FILE: README.md ===
# toon_note record/replay engine, modelled in Dafny

This project models how the toon_note JupyterLab extension records pointer
interactions with a code cell's rendered output and replays them after the
cell is executed again. Everything modelled lives in `src/index.ts`. The model
covers four parts:

- **Trail Store** (`trail.dfy`, `store.dfy`). One `MouseActions` record per
  cell id holds five parallel sequences: event types, x and y fractions of the
  output box, output child indices, and the descent trails of clicks. The
  process-wide list of records is `mouseActionsArray`. Records are persisted
  into cell metadata and read back from it.
- **Recorder** (`recorder.dfy`). The click, dblclick and mousedown handlers of
  output elements and the document-level mousemove and mouseup handlers of a
  drag. It also covers the two DOM walks `getOutputAreaRect` and
  `getIndexTrail`, and the record, stop and reset toolbar actions.
- **Replay Scheduler** (`scheduler.dfy`). `dispatchEvents` has two paired
  queues, the flags `isDispatchingEvents` and `isCallingBack`, and a 25 ms
  timer loop that synthesises one stored event per tick against the current
  DOM.
- **Execution Coordinator** (`coordinator.dfy`). `onCellExecute` with its
  1000 ms settle timer and 500 ms poll, and the one-shot subscription toggle of
  the reset button. The whole engine is one state machine `Next(World, Input)`.
  Each input is something the browser or the notebook does: an execution
  notification, a timer firing, a DOM event, a toolbar button.

Two helper modules cover code in the same file. `tags.dfy` holds the
cell-tag predicates, the comic width and height tags and the frame width.
`pairing.dfy` holds `findCorrespondingMarkdownCell`.

The DOM is an immutable tree (`dom.dfy`). An element is named by its path of
child indices from the `document` node. `document.elementFromPoint` is an
oracle: the recorder reads its answer from the event, and a replay tick gets it
as a function parameter. A JavaScript TypeError (reading a property of
`undefined` or `null`) is modelled explicitly:

- When a recorder handler throws, the work done before the throw is kept.
- When a replay tick throws, its timer loop dies. The log records the loop as
  `Faulted` and both flags stay set.

Four behaviours of the code shape the model:

- **An unresolved replay step is not skipped.** An out-of-range child index, a
  missing `jp-OutputArea-output` or a descent trail leaving the tree throws
  inside the timer callback. That ends the drain with both flags still set. No
  later replay starts, and recording stays suppressed until a recording is
  armed (`FaultStallsDrain`).
- **The reset button's toggle is one-shot.** The next executed emission
  reconnects `onCellExecute` and enqueues nothing. Later emissions of the same
  run are handled normally. The re-run itself is `NotebookActions.run`, which
  runs the selected cells.
- **Clicks are placed by offsets, not fractions.** A replayed click or dblclick
  is dispatched at `clientLeft + scrollLeft + 1` (and the top equivalents) of
  the element its descent trail reaches. The stored fractions are not used for
  it.
- **Arming a recording during a replay clears both flags without stopping the
  loop.** A following settle timer then starts a second loop beside it
  (`ArmDuringReplayStartsSecondLoop`).

## Model

| member | source | states |
|---|---|---|
| Trails.Reset | src/index.ts:74-81 | a reset record keeps its id and has all five sequences empty, so they are aligned and hold no click trail |
| Trails.UpdateMetadata | src/index.ts:83-99 | the five sequences land on the first cell with the record's id and on no other cell; without such a cell the cells are unchanged |
| Trails.UpdateFromMetadata | src/index.ts:101-120 | the answer is true exactly when some cell has the id and carries `mouseEventType`; then the sequences come from the first such cell, otherwise the record is unchanged |
| Trails.MetadataRoundTrip | src/index.ts:83-120 | writing a record and reading it back into any record with the same id restores all five sequences and answers true, whenever a cell has that id |
| Trails.NoCellNoMetadata | src/index.ts:83-120 | with no cell of that id, writing changes nothing and reading answers false and leaves the record as it was |
| Trails.Hydrate | src/index.ts:420-434 | a record created for an id takes the sequences of the first cell with that id carrying them, and starts empty when no cell does |
| Trails.UpdateMetadataKeepsAligned | src/index.ts:83-99 | writing an aligned record keeps every persisted trail aligned |
| Trails.HydrateAligned | src/index.ts:427-431 | a record loaded from aligned metadata is aligned |
| Trails.ClickCountAppend | src/index.ts:895-896 | pushing an event adds one to the click count exactly when it is a click or dblclick |
| Store.IndexOf | src/index.ts:422-426 | the lookup finds the first record with the id, and finds none exactly when no record has it |
| Store.ContainsMouseActions | src/index.ts:862-874 | the scan answers true exactly when some record has the id |
| Store.GetMouseActions | src/index.ts:420-434 | answers the existing record unchanged, or appends one record hydrated from the metadata; afterwards the first record with the id is the one answered, and earlier records are untouched |
| Store.Put | src/index.ts:887-896 | a record mutated in place changes only its own slot, and keeps every id at its position |
| Store.GetMouseActionsKeepsUnique | src/index.ts:420-434 | a lookup keeps record ids unique and leaves the id present |
| Store.GetMouseActionsExtends | src/index.ts:420-434 | a lookup adds at most one record and never alters those before it |
| Store.GetMouseActionsAligned | src/index.ts:420-434 | a lookup keeps every record aligned when the metadata is aligned |
| Store.PutKeepsUnique | src/index.ts:887-896 | an in-place update keeps ids unique and the record at its position |
| Store.PutAligned | src/index.ts:887-896 | an in-place update with an aligned record keeps every record aligned |
| Store.ResetThenReload | src/index.ts:1154-1157 | a reset record, persisted and then looked up afresh, reloads empty |
| Store.PersistThenReload | src/index.ts:1021-1031 | a record persisted and then looked up afresh comes back identical |
| Dom.FirstByClass | src/index.ts:851 | `getElementsByClassName(cls)[0]` is a proper descendant carrying the class with no descendant before it in document order carrying it, and `undefined` means no descendant carries it |
| Dom.Descend | src/index.ts:372-375 | following a click trail last entry first reaches the reversed trail as a path, and it is a live element |
| Recorder.AbsInvertsRel | src/index.ts:892-893 | a fraction recorded against a box (`Rel`, as here) and replayed against the same box (`Abs`, as at src/index.ts:368-369) gives back the original client coordinate |
| Recorder.InnermostWith | src/index.ts:844-846 | the walk up stops at the innermost ancestor-or-self carrying the class, and finds none exactly when no ancestor carries it |
| Recorder.OutputAreaRect | src/index.ts:840-860 | a resolved index is the position of the innermost `jp-OutputArea-child` ancestor-or-self among its siblings, the output is that child's first `jp-OutputArea-output` in document order and the box is its box; index -1 exactly when no ancestor carries the child class; the walk throws exactly when that child is the document element or holds no output element |
| Recorder.WalkUp | src/index.ts:436-456 | the walk up throws exactly when no ancestor-or-self carries `jp-OutputArea-output` |
| Recorder.IndexTrail | src/index.ts:436-456 | with no element under the pointer the trail is empty; otherwise `getIndexTrail` throws exactly when no ancestor-or-self of that element carries `jp-OutputArea-output` |
| Recorder.WalkUpShape | src/index.ts:436-456 | read backwards, the trail is the path below the innermost `jp-OutputArea-output` ancestor-or-self, and no deeper ancestor carries that class |
| Recorder.DescendReaches | src/index.ts:372-375 | following a trail that names a live element reaches exactly that element |
| Recorder.IndexTrailRoundTrip | src/index.ts:436-456 | the trail `getIndexTrail` records for the element under the pointer, followed by the replay's descent loop (src/index.ts:372-375) from its output ancestor, leads back to that element in an unchanged tree |
| Recorder.Append | src/index.ts:887-896 | one event appends one entry to each per-event sequence of the active record, and a descent trail only when one was computed; other records stay as they were, and the store grows by one record exactly when the id had none |
| Recorder.AppendKeeps | src/index.ts:887-896 | appending keeps ids unique and every record aligned |
| Recorder.RecordClick | src/index.ts:876-897 | while replaying, or when the target is outside an output child, nothing changes; otherwise the event is appended with the output's index and its fractions of the output box, with the descent trail unless `getIndexTrail` threw |
| Recorder.RecordMouseDown | src/index.ts:899-927 | a resolved mousedown is appended without a descent trail, anchors the drag on the output box and attaches the document listeners |
| Recorder.DocumentMouseMove | src/index.ts:929-948 | while a drag listens and no replay runs, a move is appended with the last child index repeated and fractions of the anchor box |
| Recorder.DocumentMouseUp | src/index.ts:950-973 | a mouseup is appended like a move, then detaches the listeners and drops the anchor; suppressed, it detaches nothing |
| Recorder.ClickKeepsRecOk | src/index.ts:876-897 | a click or dblclick keeps ids unique, every record aligned and the drag state consistent |
| Recorder.MouseDownKeepsRecOk | src/index.ts:899-927 | a mousedown keeps ids unique, every record aligned and the drag state consistent |
| Recorder.MouseMoveKeepsRecOk | src/index.ts:929-948 | a drag move keeps ids unique, every record aligned and the drag state consistent |
| Recorder.MouseUpKeepsRecOk | src/index.ts:950-973 | a mouseup keeps ids unique, every record aligned and the drag state consistent |
| Recorder.HandlersKeepClicksAligned | src/index.ts:876-973 | every handler keeps one descent trail per click, provided `getIndexTrail` does not throw |
| Recorder.ThrowingClickMisaligns | src/index.ts:896 | a click whose `getIndexTrail` throws leaves the record with one click more than it has descent trails |
| Recorder.DragSharesIndex | src/index.ts:899-973 | every event of a drag (mousedown, moves, mouseup) carries the mousedown's child index, and the drag ends detached |
| Recorder.UpRepeats | src/index.ts:959-972 | the mouseup repeats the anchor index once more and ends the drag |
| Recorder.MovesRepeat | src/index.ts:937-947 | each move repeats the anchor index, extending the run of repeated indices by one |
| Recorder.ArmTrail | src/index.ts:989-997 | after arming, the active record exists and is empty, other records are unchanged, the store grows by one record exactly when the id had none, and uniqueness and alignment are kept |
| Recorder.Arm | src/index.ts:980-1019 | arming a code cell changes the store exactly as the trail part of arming does (emptying only the active record) and attaches the listeners to its outputs; arming a non-code cell changes nothing in the recorder |
| Recorder.ArmTwice | src/index.ts:980-1019 | arming twice is arming once |
| Recorder.Stop | src/index.ts:1021-1031 | stopping on a code cell looks its record up and writes exactly that record (the existing one, or the one hydrated from the metadata) into the metadata; on a non-code cell nothing changes |
| Recorder.StopPersists | src/index.ts:1021-1031 | after a stop, loading the cell's metadata afresh gives back the record as it stood |
| Recorder.ResetCell | src/index.ts:1149-1157 | the reset button empties the active record, leaves the other records as they were, grows the store by one record exactly when the id had none, and writes the empty record onto the first cell with the id and no other cell |
| Recorder.ResetCellKeeps | src/index.ts:1149-1157 | the reset keeps ids unique and records and metadata aligned |
| Recorder.ResetPersistsEmpty | src/index.ts:1149-1157 | after a reset, loading the cell's metadata afresh gives an empty trail |
| Scheduler.Enqueue | src/index.ts:302-303 | the two queues get one entry each and stay paired; nothing else changes |
| Scheduler.DispatchEvents | src/index.ts:330-418 | a non-empty queue sets both flags, takes the head pair and starts one loop at event 0 on the record reloaded from metadata, changing no other record and adding a record only when the id had none; an empty queue clears both flags |
| Scheduler.OutputOf | src/index.ts:361-362 | the output element of a tick is the first `jp-OutputArea-output` inside the recorded child of the queued node, and is missing exactly when the node is gone, the index is out of range or the child holds none |
| Scheduler.ResolveEvent | src/index.ts:361-405 | a tick throws exactly when the child index is missing, the output element is missing, or, for a click, the next descent trail is missing or leaves the tree; a click is dispatched on the element that trail reaches from the output element, at its `clientLeft + scrollLeft + 1` and `clientTop + scrollTop + 1`; any other event is placed at its stored fractions of the output element's box and dispatched on what the hit test finds there |
| Scheduler.ReplayLandsAtRecordedPoint | src/index.ts:364-369 | an event other than a click, stored as fractions of a box and replayed where the output element has that box, is synthesised at the recorded client position |
| Scheduler.MouseDownReplaysAtItsPoint | src/index.ts:899-927 | the mousedown `recordMouseDown` appends, replayed against an output element with the box it was measured against, is dispatched at the recorded client position |
| Scheduler.MouseMoveReplaysAtItsPoint | src/index.ts:929-948 | the drag move `recordMouseMove` appends, replayed against an output element with the anchor box, is dispatched at the recorded client position |
| Scheduler.Tick | src/index.ts:352-411 | an exhausted trail removes the loop and runs `dispatchEvents` on what remains; otherwise the queues, flags and store are untouched and exactly one log entry for the loop's cell and event index is added |
| Scheduler.TickFaults | src/index.ts:361-405 | a tick whose event does not resolve logs a fault, removes its loop and changes nothing else |
| Scheduler.TickReplays | src/index.ts:384-406 | a tick whose event resolves logs it with its kind, position and target and advances the event index, and the click index after a click |
| Scheduler.DispatchEventsKeeps | src/index.ts:330-418 | starting a drain establishes single flight, paired queues, equal flags and a consistent loop |
| Scheduler.TickKeeps | src/index.ts:352-411 | every tick keeps the queues paired, the flags equal, at most one loop, the loop within its trail, one descent trail consumed per replayed click, and the log in event order |
| Scheduler.AdvanceKeepsLog | src/index.ts:404-406 | logging event `i` of a loop at `i` gives the log of the loop at `i + 1` |
| Scheduler.ClickConsumesItsTrail | src/index.ts:371-395 | the k-th click of a trail is replayed with its k-th descent trail: the loop's click index counts the earlier clicks, and the click is dispatched on the element that trail reaches from the output element |
| Scheduler.Drain | src/index.ts:352-418 | ticking the pending loop keeps the scheduler invariant and only extends the log |
| Scheduler.TickKeepsStage | src/index.ts:352-411 | a tick never logs an entry of the first cell after one of the second, and logs only the first cell's entries while the second still waits |
| Scheduler.DrainKeepsStage | src/index.ts:352-418 | any number of ticks keeps that order |
| Scheduler.ReplaysRunInQueueOrder | src/index.ts:300-305 | two code cells settled in turn on an idle engine are replayed in that order: no log entry of the first follows an entry of the second |
| Scheduler.ScenarioMouseDownAt120x60 | src/index.ts:364-369 | a mousedown and mouseup recorded at fractions (0.1, 0.1), replayed on an output box at (100, 50) of size 200x100, are synthesised at (120, 60) |
| Coordinator.OnExecuted | src/index.ts:295-300 | in the normal subscription a code cell gets one settle timer and other cells none; while suppressed the emission only restores the normal subscription |
| Coordinator.OnSettle | src/index.ts:300-320 | a settle timer enqueues its cell; when idle it runs `dispatchEvents` on the queue with the cell pushed, which alone changes the scheduler and the store, and starts a poll for the cell; otherwise it only pushes and applies the final frame at once |
| Coordinator.OnPoll | src/index.ts:306-316 | a poll applies the final frame for its own cell and removes exactly itself once the drain has ended; otherwise it changes nothing |
| Coordinator.Next | src/index.ts:295-1163 | only the stop and reset buttons write cell metadata |
| Coordinator.StartOk | src/index.ts:326-328 | the initial state satisfies the engine invariant and the scheduler invariant |
| Coordinator.DispatchKeeps | src/index.ts:330-350 | a drain start keeps ids unique, records aligned and every loop reading a record |
| Coordinator.SettleKeeps | src/index.ts:300-320 | a settle timer keeps the engine invariant |
| Coordinator.StepKeeps | src/index.ts:352-411 | a replay tick keeps the engine invariant |
| Coordinator.RecorderKeeps | src/index.ts:876-1163 | recorder events and the toolbar actions keep the engine invariant |
| Coordinator.NextKeepsInv | src/index.ts:295-1163 | every input keeps ids unique, records and metadata aligned, the drag consistent, the queues paired, the flags equal and every loop reading a record |
| Coordinator.NextKeepsSchedOk | src/index.ts:295-418 | every input except arming during a pending replay loop (arming with no loop pending included) keeps single flight, the loop consistent (or reading a record the reset button emptied) and the log in event order |
| Coordinator.FlagsClearOnlyWhenDrained | src/index.ts:356-358 | once set, the drain flags are cleared exactly by arming a recording or by a tick that finds its trail exhausted with the queue empty |
| Coordinator.ReplaySuppressesRecorder | src/index.ts:878-879 | while `isCallingBack` is set, or a loop is pending under single flight, no recorder event changes anything |
| Coordinator.ArmDuringReplayStartsSecondLoop | src/index.ts:982-983 | arming during a replay clears the flags and the next settle timer starts a second loop beside the pending one |
| Coordinator.FaultStallsDrain | src/index.ts:300-411 | a replay tick that throws removes its loop but leaves both flags set; afterwards a settle timer only enqueues, a poll changes nothing and every recorder event is ignored |
| Coordinator.ResetAndExecutedSteps | src/index.ts:1149-1163 | the reset button only suppresses the subscription among the coordinator's state, and an execution notification only touches the coordinator |
| Coordinator.ResetSuppressesOneExecution | src/index.ts:1139-1160 | after the reset toggle the first execution enqueues nothing and reconnects, and the next code execution arms a settle timer again |
| Coordinator.ResetTwiceStaysSuppressed | src/index.ts:1149-1163 | pressing reset twice leaves the subscription suppressed, as once |
| Coordinator.SettleDrainsOldestFirst | src/index.ts:300-340 | a settle timer on an idle engine replays the head of the queue first |
| Tags.Has | src/index.ts:470-482 | a tag test is true exactly when the tags exist and contain the tag |
| Tags.IntermediateIsComic | src/index.ts:470-496 | an intermediate cell is a comic cell, and a comic cell is one tagged comic or intermediate |
| Tags.ComicWidth | src/index.ts:727-747 | the width tag is chosen with priority full, half, third, twothird, and is `undefined` exactly when none is present |
| Tags.FrameWidthDefaults | src/index.ts:686-697 | a half tag or no width tag frames the cell at 50%, a full tag at 100%, and third and twothird, when no tag of higher priority is present, at 33.3% and 66.6% |
| Tags.IndexOfChar | src/index.ts:757 | the first ':' is found exactly when the text contains one |
| Tags.SecondField | src/index.ts:757 | `split(':')[1]` is the ':'-free text after the first ':', up to the next ':' or the end, and `undefined` exactly when there is no ':' |
| Tags.ComicHeight | src/index.ts:749-764 | the height is the second field of the first tag starting with "height", and "" when there is no such tag |
| Tags.HeightExample | src/index.ts:749-764 | a "height:100px" tag gives the height "100px" |
| Tags.BareHeightIsUndefined | src/index.ts:749-764 | a bare "height" tag gives `undefined` |
| Pairing.CodeRunBefore | src/index.ts:788-797 | counts the comic code cells immediately before a cell, up to the first cell that is not one |
| Pairing.MarkdownRunAt | src/index.ts:800-814 | counts the comic markdown cells ending at a cell, back to the first cell that is not one |
| Pairing.PairedMeaning | src/index.ts:779-821 | a paired cell is a comic markdown cell, offset by the number of preceding comic code cells from the start of the markdown run before them, and that run does not start at cell 0 |
| Pairing.NoMarkdownNoPair | src/index.ts:779-821 | without a comic markdown cell before it, a cell has no pairing |
| Pairing.FindCorrespondingMarkdownCell | src/index.ts:779-821 | the two backward loops compute the pairing defined run by run |

## Left out

- Real timers and I/O. The 1000 ms, 500 ms and 25 ms timers become inputs
  that fire in an order the environment chooses. Settle timers, all of one
  delay, fire in the order they were set; any pending poll or replay tick may
  fire next. Cell execution itself is not modelled, nor the CSV logging.
- `scrollIntoView` during replay. Its layout effect is folded into the tree
  that a tick is given.
- Floating point. Positions are exact reals. Taking a fraction needs a box
  with non-zero width and height (`Proper`), so a zero-sized output box at
  record time is outside the model.
- Array aliasing between a record and the metadata it was written to or read
  from. Metadata holds copies of the sequences. The stop button detaches no
  listeners, so events keep being recorded after a stop. If the notebook
  metadata keeps the array references it is given, those later events also
  reach the stored metadata. In the model they stay only in memory, and the
  next replay's reload from metadata drops them.
- Switching notebooks and editing cells. The model has one notebook, and its
  cell list changes only through the metadata writes of the stop and reset
  buttons. The code re-reads the active notebook's cell list on every
  metadata read and write (src/index.ts:85, 103). So it sees cells added,
  removed or re-tagged, and while another notebook is active it finds no
  metadata for a replayed cell and keeps the in-memory record.
- The queued output-area node. It is a path into the tree a tick is given, not
  a live reference.
- Lumino signal semantics. Only the order of connect and disconnect calls is
  modelled, as a two-state subscription.
- Cosmetic styling. `applyCodeFrame` is only logged by cell id
  (`Coord.framed`). `formatOutputArea`, `fixComicLayout`, `markdownFunction`,
  the style strings of `set_frameStyle` and the height styling are not
  modelled.
- Plugin and toolbar wiring, `activate`, and the comic view toggles.
- The output elements the record button attaches listeners to. `ArmRecording`
  takes them as an arbitrary set of paths, not tied to the active cell's
  `jp-OutputArea-output` elements, because the cell widget's output area is
  not part of the modelled tree.
- The `ma == null` branch of `dispatchEvents` (src/index.ts:339-344). It is
  unreachable, because `getMouseActions` always returns a record.
- Coordinator.Next: its contract states only that metadata is written by the
  stop and reset buttons. What each input does is stated on the members it
  calls (`OnExecuted`, `OnSettle`, `OnPoll`, `Tick`, the recorder handlers,
  `Arm`, `Stop`, `ResetCell`).
- Re-rendering of outputs. The listeners are kept as paths, and a path
  outlives the re-rendering of the output it named. In the browser a
  re-execution replaces the output nodes and drops their listeners, so the
  model records clicks and mousedowns on re-rendered outputs that the code
  ignores until the record button is pressed again.
- Partial metadata. The five metadata keys are merged into one optional
  value per cell, so a cell carrying `mouseEventType` but missing another key
  (which the code reads as `undefined`) cannot be expressed. The invariants
  that persisted trails are aligned rely on this.
- Pairing.FindCorrespondingMarkdownCell: the cell is given by its position.
  A cell that is not in the notebook is any position past the end.
- Tags.FrameWidthDefaults: it covers only the width mapping of
  `set_frameStyle`.

=== FILE: base.dfy ===
/** Small wrapper types shared by every module of the model. */
module Base {

  /** `undefined`/`null` versus a present value. */
  datatype Option<+T> = None | Some(value: T)

  /** A computation that either yields a value or throws (a JavaScript TypeError
      from reading a property of `undefined` or `null`). */
  datatype Result<+T> = Ok(value: T) | Thrown

  /** Reverse of a sequence; descent trails are stored innermost-first. */
  function Reverse<T>(s: seq<T>): (r: seq<T>)
    ensures |r| == |s|
    ensures forall i :: 0 <= i < |s| ==> r[i] == s[|s| - 1 - i]
  {
    if s == [] then [] else [s[|s| - 1]] + Reverse(s[..|s| - 1])
  }
}

=== FILE: coordinator.dfy ===
/** The Execution Coordinator and the whole engine as one state machine:
    execution notifications, the one-shot subscription toggle of the reset
    button, the 1000 ms settle timers, the 500 ms polls, the 25 ms replay
    ticks, the recorder's DOM events and its toolbar actions. */
module Coordinator {
  import opened Base
  import opened Dom
  import opened Trails
  import opened Store
  import opened Recorder
  import opened Scheduler

  /** Delay between a cell's execution and the enqueueing of its replay, in ms. */
  const SettleDelay := 1000
  /** Interval of the poll that waits for the drain to finish, in ms. */
  const PollDelay := 500

  /** Which slot the executed signal is connected to: `onCellExecute`
      (Normal) or, after the reset button, `reconnectCellExecution`
      (Suppressed). */
  datatype Sub = Normal | Suppressed

  /** A pending settle timer: the executed code cell and its output-area node. */
  datatype Job = Job(id: CellId, node: Path)

  /** The subscription, the pending settle timers (same delay, so they fire
      in the order they were set), the pending polls, and the cells
      `applyCodeFrame` has been called on, in call order. */
  datatype Coord = Coord(sub: Sub, settling: seq<Job>, polling: seq<CellId>, framed: seq<CellId>)

  datatype World = World(rec: Rec, cells: seq<Cell>, sched: Sched, coord: Coord)

  /** What the environment does next. */
  datatype Input =
    | Executed(id: CellId, isCode: bool, node: Path)     // the executed signal is emitted
    | SettleFires                                        // the oldest settle timer fires
    | PollFires(k: nat)                                  // poll `k` fires
    | StepFires(k: nat, doc: Element, hit: (real, real) -> Option<Path>)  // loop `k` ticks
    | OutputClick(doc: Element, active: CellId, kind: EventKind, ev: Pointer)
    | OutputMouseDown(doc: Element, active: CellId, ev: Pointer)
    | DocMouseMove(active: CellId, ev: Pointer)
    | DocMouseUp(active: CellId, ev: Pointer)
    | ArmRecording(active: CellId, isCode: bool, outputs: set<Path>)  // record button
    | StopRecording(active: CellId, isCode: bool)                     // stop button
    | ResetButton(active: CellId)                                     // reset button

  /** What the engine keeps true whatever the environment does. */
  predicate Inv(w: World) {
    RecOk(w.rec, w.cells) && QueueAligned(w.sched) && FlagsEqual(w.sched)
    && forall k :: 0 <= k < |w.sched.loops| ==> Reads(w.rec.store, w.sched.loops[k])
  }

  /** An output-element event reaches the recorder when the target is, or is
      inside, an element that carries the listeners. */
  predicate Listened(listeners: set<Path>, target: Path) {
    exists n :: 1 <= n <= |target| && target[..n] in listeners
  }

  /** The facts the browser guarantees about the DOM events of an input. */
  predicate Enabled(i: Input) {
    match i
    case OutputClick(doc, _, kind, ev) => IsClick(kind) && Targets(doc, ev) && ResolvesProper(doc, ev.target)
    case OutputMouseDown(doc, _, ev) => IsElement(doc, ev.target) && ResolvesProper(doc, ev.target)
    case _ => true
  }

  /** `onCellExecute` through the subscription: a code cell arms a settle
      timer; while Suppressed, the emission goes to `reconnectCellExecution`
      instead, which restores the Normal subscription and nothing else. */
  function OnExecuted(c: Coord, id: CellId, isCode: bool, node: Path): (r: Coord)
    ensures r.polling == c.polling && r.framed == c.framed
    ensures c.sub == Suppressed ==> r.sub == Normal && r.settling == c.settling
    ensures c.sub == Normal ==> (r.sub == Normal
                                 && r.settling == c.settling + (if isCode then [Job(id, node)] else []))
  {
    if c.sub == Suppressed then c.(sub := Normal)
    else if isCode then c.(settling := c.settling + [Job(id, node)])
    else c
  }

  /** The settle timer: push the pair; when no drain is running start one and
      poll until it ends, otherwise apply the final frame at once. */
  function OnSettle(w: World): (r: World)
    requires Inv(w)
    ensures |w.coord.settling| == 0 ==> r == w
    ensures |w.coord.settling| > 0 ==>
      var j := w.coord.settling[0];
      r.coord.settling == w.coord.settling[1..] && r.coord.sub == w.coord.sub
      && (w.sched.dispatching ==>
            r.sched == Enqueue(w.sched, j.id, j.node) && r.rec == w.rec && r.cells == w.cells
            && r.coord.framed == w.coord.framed + [j.id] && r.coord.polling == w.coord.polling)
      && (!w.sched.dispatching ==>
            (r.sched, r.rec.store) == DispatchEvents(Enqueue(w.sched, j.id, j.node), w.rec.store, w.cells)
            && r.sched.dispatching && r.rec.drag == w.rec.drag && r.rec.listeners == w.rec.listeners
            && r.cells == w.cells && r.coord.framed == w.coord.framed
            && r.coord.polling == w.coord.polling + [j.id])
  {
    if |w.coord.settling| == 0 then w
    else
      var j := w.coord.settling[0];
      var c := w.coord.(settling := w.coord.settling[1..]);
      var q := Enqueue(w.sched, j.id, j.node);
      if !w.sched.dispatching then
        var (s', store') := DispatchEvents(q, w.rec.store, w.cells);
        World(w.rec.(store := store'), w.cells, s', c.(polling := c.polling + [j.id]))
      else
        World(w.rec, w.cells, q, c.(framed := c.framed + [j.id]))
  }

  /** A poll: once no drain is running it applies the final frame and stops;
      otherwise it reschedules itself. */
  function OnPoll(w: World, k: nat): (r: World)
    ensures r.rec == w.rec && r.cells == w.cells && r.sched == w.sched
    ensures r.coord.sub == w.coord.sub && r.coord.settling == w.coord.settling
    ensures k < |w.coord.polling| && !w.sched.dispatching ==>
      r.coord.framed == w.coord.framed + [w.coord.polling[k]] && |r.coord.polling| == |w.coord.polling| - 1
      && r.coord.polling == w.coord.polling[..k] + w.coord.polling[k + 1..]
    ensures k >= |w.coord.polling| || w.sched.dispatching ==> r == w
  {
    if k >= |w.coord.polling| || w.sched.dispatching then w
    else
      var p := w.coord.polling;
      w.(coord := w.coord.(polling := p[..k] + p[k + 1..], framed := w.coord.framed + [p[k]]))
  }

  /** One transition of the engine. A timer index with no pending timer
      changes nothing. */
  function Next(w: World, i: Input): (r: World)
    requires Inv(w) && Enabled(i)
    ensures r.cells != w.cells ==> i.StopRecording? || i.ResetButton?
  {
    match i
    case Executed(id, isCode, node) => w.(coord := OnExecuted(w.coord, id, isCode, node))
    case SettleFires => OnSettle(w)
    case PollFires(k) => OnPoll(w, k)
    case StepFires(k, doc, hit) =>
      if k >= |w.sched.loops| then w
      else
        var (s', store') := Tick(w.sched, k, w.rec.store, w.cells, doc, hit);
        w.(sched := s', rec := w.rec.(store := store'))
    case OutputClick(doc, active, kind, ev) =>
      if !Listened(w.rec.listeners, ev.target) then w
      else w.(rec := RecordClick(w.rec, w.cells, doc, w.sched.callingBack, active, kind, ev))
    case OutputMouseDown(doc, active, ev) =>
      if !Listened(w.rec.listeners, ev.target) then w
      else w.(rec := RecordMouseDown(w.rec, w.cells, doc, w.sched.callingBack, active, ev))
    case DocMouseMove(active, ev) =>
      w.(rec := DocumentMouseMove(w.rec, w.cells, w.sched.callingBack, active, ev))
    case DocMouseUp(active, ev) =>
      w.(rec := DocumentMouseUp(w.rec, w.cells, w.sched.callingBack, active, ev))
    case ArmRecording(active, isCode, outputs) =>
      // both flags are cleared first, whatever the cell type and whatever loop is pending
      w.(sched := w.sched.(dispatching := false, callingBack := false),
         rec := Arm(w.rec, w.cells, active, isCode, outputs))
    case StopRecording(active, isCode) =>
      var (store', cells') := Stop(w.rec.store, w.cells, active, isCode);
      w.(rec := w.rec.(store := store'), cells := cells')
    case ResetButton(active) =>
      var (store', cells') := ResetCell(w.rec.store, w.cells, active);
      w.(rec := w.rec.(store := store'), cells := cells', coord := w.coord.(sub := Suppressed))
  }

  const Start := World(Rec([], Drag(false, None), {}), [], Idle, Coord(Normal, [], [], []))

  // --------------------------------------------------------------- theorems

  lemma StartOk(cells: seq<Cell>)
    requires SavedAligned(cells)
    ensures Inv(Start.(cells := cells)) && SchedOk(Start.sched, Start.rec.store)
  {
  }

  /** Loops keep reading their records when the store's ids are extended. */
  lemma ReadsExtended(loops: seq<Loop>, s: Store, s': Store)
    requires IdsExtend(s, s') && AllAligned(s')
    requires forall k :: 0 <= k < |loops| ==> Reads(s, loops[k])
    ensures forall k :: 0 <= k < |loops| ==> Reads(s', loops[k])
  {
    forall k | 0 <= k < |loops| ensures Reads(s', loops[k]) {
      IndexOfExtended(s, s', loops[k].id);
    }
  }

  /** A drain start keeps ids unique, records aligned, and every loop, old
      and new, reading an aligned record. */
  lemma DispatchKeeps(s: Sched, store: Store, cells: seq<Cell>)
    requires QueueAligned(s) && UniqueIds(store) && AllAligned(store) && SavedAligned(cells)
    requires forall k :: 0 <= k < |s.loops| ==> Reads(store, s.loops[k])
    ensures var r := DispatchEvents(s, store, cells);
      UniqueIds(r.1) && AllAligned(r.1) && forall k :: 0 <= k < |r.0.loops| ==> Reads(r.1, r.0.loops[k])
  {
    if |s.ids| > 0 {
      var id := s.ids[0];
      var (s1, k) := GetMouseActions(store, cells, id);
      GetMouseActionsKeepsUnique(store, cells, id);
      GetMouseActionsAligned(store, cells, id);
      PutKeepsUnique(s1, id, UpdateFromMetadata(s1[k], cells).0);
      PutAligned(s1, id, UpdateFromMetadata(s1[k], cells).0);
      var r := DispatchEvents(s, store, cells);
      ReadsExtended(s.loops, store, r.1);
    }
  }

  lemma SettleKeeps(w: World)
    requires Inv(w)
    ensures Inv(OnSettle(w))
  {
    if |w.coord.settling| > 0 && !w.sched.dispatching {
      var j := w.coord.settling[0];
      DispatchKeeps(Enqueue(w.sched, j.id, j.node), w.rec.store, w.cells);
    }
  }

  lemma StepKeeps(w: World, k: nat, doc: Element, hit: (real, real) -> Option<Path>)
    requires Inv(w) && k < |w.sched.loops|
    ensures var r := Tick(w.sched, k, w.rec.store, w.cells, doc, hit);
      Inv(w.(sched := r.0, rec := w.rec.(store := r.1)))
  {
    var l := w.sched.loops[k];
    var f := w.rec.store[IndexOf(w.rec.store, l.id).value].f;
    var rest := w.sched.loops[..k] + w.sched.loops[k + 1..];
    assert forall j :: 0 <= j < |rest| ==> rest[j] in w.sched.loops;
    if l.i >= |f.types| {
      DispatchKeeps(w.sched.(loops := rest), w.rec.store, w.cells);
    }
  }

  lemma RecorderKeeps(w: World, i: Input)
    requires Inv(w) && Enabled(i)
    requires i.OutputClick? || i.OutputMouseDown? || i.DocMouseMove? || i.DocMouseUp?
      || i.ArmRecording? || i.StopRecording? || i.ResetButton?
    ensures Inv(Next(w, i))
  {
    var r := Next(w, i);
    match i {
      case OutputClick(doc, active, kind, ev) =>
        ClickKeepsRecOk(w.rec, w.cells, doc, w.sched.callingBack, active, kind, ev);
        ReadsExtended(w.sched.loops, w.rec.store, r.rec.store);
      case OutputMouseDown(doc, active, ev) =>
        MouseDownKeepsRecOk(w.rec, w.cells, doc, w.sched.callingBack, active, ev);
        ReadsExtended(w.sched.loops, w.rec.store, r.rec.store);
      case DocMouseMove(active, ev) =>
        MouseMoveKeepsRecOk(w.rec, w.cells, w.sched.callingBack, active, ev);
        ReadsExtended(w.sched.loops, w.rec.store, r.rec.store);
      case DocMouseUp(active, ev) =>
        MouseUpKeepsRecOk(w.rec, w.cells, w.sched.callingBack, active, ev);
        ReadsExtended(w.sched.loops, w.rec.store, r.rec.store);
      case ArmRecording(active, isCode, outputs) =>
        ReadsExtended(w.sched.loops, w.rec.store, r.rec.store);
      case StopRecording(active, isCode) =>
        if isCode {
          GetMouseActionsKeepsUnique(w.rec.store, w.cells, active);
          GetMouseActionsAligned(w.rec.store, w.cells, active);
          var (s1, k) := GetMouseActions(w.rec.store, w.cells, active);
          UpdateMetadataKeepsAligned(s1[k], w.cells);
        }
        ReadsExtended(w.sched.loops, w.rec.store, r.rec.store);
      case ResetButton(active) =>
        ResetCellKeeps(w.rec.store, w.cells, active);
        ReadsExtended(w.sched.loops, w.rec.store, r.rec.store);
    }
  }

  /** Whatever the environment does, the engine keeps ids unique, the
      per-event sequences of every record and every persisted trail aligned,
      the drag state consistent, the two queues paired, the two flags equal,
      and every pending loop reading a record of the store. */
  lemma NextKeepsInv(w: World, i: Input)
    requires Inv(w) && Enabled(i)
    ensures Inv(Next(w, i))
  {
    match i {
      case Executed(_, _, _) =>
      case SettleFires => SettleKeeps(w);
      case PollFires(_) =>
      case StepFires(k, doc, hit) =>
        if k < |w.sched.loops| { StepKeeps(w, k, doc, hit); }
      case _ => RecorderKeeps(w, i);
    }
  }

  /** Records the store keeps at their positions, unchanged, stay consistent
      with the loops that read them. */
  lemma LoopsConsistentExtended(loops: seq<Loop>, s: Store, s': Store)
    requires IdsExtend(s, s') && AllAligned(s')
    requires forall k :: 0 <= k < |loops| ==> LoopConsistent(s, loops[k])
    requires forall k :: 0 <= k < |loops| && IndexOf(s, loops[k].id).Some? ==>
      s'[IndexOf(s, loops[k].id).value] == s[IndexOf(s, loops[k].id).value]
    ensures forall k :: 0 <= k < |loops| ==> LoopConsistent(s', loops[k])
  {
    forall k | 0 <= k < |loops| ensures LoopConsistent(s', loops[k]) {
      IndexOfExtended(s, s', loops[k].id);
    }
  }

  /** Single flight: apart from arming a recording while a replay loop is
      pending, every input keeps at most one loop pending and only while
      dispatching, the pending loop within its trail with one descent trail
      consumed per replayed click (or over a record the reset button
      emptied), and the log ending with that loop's events in index order. */
  lemma NextKeepsSchedOk(w: World, i: Input)
    requires Inv(w) && Enabled(i) && SchedOk(w.sched, w.rec.store)
    requires !(i.ArmRecording? && |w.sched.loops| > 0)
    ensures SchedOk(Next(w, i).sched, Next(w, i).rec.store)
  {
    NextKeepsInv(w, i);
    var r := Next(w, i);
    match i {
      case Executed(_, _, _) =>
      case PollFires(_) =>
      case SettleFires =>
        if |w.coord.settling| > 0 && !w.sched.dispatching {
          var j := w.coord.settling[0];
          DispatchEventsKeeps(Enqueue(w.sched, j.id, j.node), w.rec.store, w.cells);
        }
      case StepFires(k, doc, hit) =>
        if k < |w.sched.loops| { TickKeeps(w.sched, k, w.rec.store, w.cells, doc, hit); }
      case StopRecording(active, isCode) =>
        LoopsConsistentExtended(w.sched.loops, w.rec.store, r.rec.store);
      case ResetButton(active) =>
        forall k | 0 <= k < |w.sched.loops|
          ensures LoopConsistent(r.rec.store, w.sched.loops[k])
        {
          var l := w.sched.loops[k];
          IndexOfExtended(w.rec.store, r.rec.store, l.id);
          var x := IndexOf(w.rec.store, l.id).value;
          if l.id != active {
            assert w.rec.store[x].id != active;
            assert r.rec.store[x] == w.rec.store[x];
          }
        }
      case ArmRecording(_, _, _) =>
        // no loop is pending, so clearing both flags keeps single flight
        assert |r.sched.loops| == 0;
      case _ =>
        // recorder events: suppressed while a loop is pending, so no loop is
        // pending whenever they change the store
        assert |w.sched.loops| == 1 ==> w.sched.callingBack;
    }
  }

  /** The drain flags, once set, are cleared by exactly two things: arming a
      recording, or a tick that finds its trail exhausted with the queue
      empty. A fault, a settle, a poll or a recorder event leaves them set. */
  lemma FlagsClearOnlyWhenDrained(w: World, i: Input)
    requires Inv(w) && Enabled(i) && w.sched.dispatching
    ensures !Next(w, i).sched.dispatching <==>
      (i.ArmRecording?
       || (i.StepFires? && i.k < |w.sched.loops| && |w.sched.ids| == 0
           && var l := w.sched.loops[i.k];
           l.i >= |w.rec.store[IndexOf(w.rec.store, l.id).value].f.types|))
  {
    match i {
      case StepFires(k, doc, hit) =>
        if k < |w.sched.loops| {
          var l := w.sched.loops[k];
          var f := w.rec.store[IndexOf(w.rec.store, l.id).value].f;
          if l.i >= |f.types| {
            assert Next(w, i).sched == DispatchEvents(w.sched.(loops := Without(w.sched.loops, k)), w.rec.store, w.cells).0;
          }
        }
      case _ =>
    }
  }

  /** Suppression: while `isCallingBack` is set no recorder event touches the
      store or the drag state; and while a replay loop is pending under single
      flight, `isCallingBack` is set. */
  lemma ReplaySuppressesRecorder(w: World, i: Input)
    requires Inv(w) && Enabled(i)
    requires i.OutputClick? || i.OutputMouseDown? || i.DocMouseMove? || i.DocMouseUp?
    requires w.sched.callingBack || (SchedOk(w.sched, w.rec.store) && |w.sched.loops| > 0)
    ensures Next(w, i) == w
  {
  }

  /** Arming a recording while a replay loop is pending clears both flags
      without stopping the loop, so the next settle timer starts a second loop
      beside it. */
  lemma ArmDuringReplayStartsSecondLoop(w: World, active: CellId, isCode: bool, outputs: set<Path>)
    requires Inv(w) && SchedOk(w.sched, w.rec.store)
    requires |w.sched.loops| == 1 && |w.coord.settling| > 0
    ensures var w1 := Next(w, ArmRecording(active, isCode, outputs));
      Inv(w1) && |Next(w1, SettleFires).sched.loops| == 2
      && !SingleFlight(Next(w1, SettleFires).sched)
  {
    var w1 := Next(w, ArmRecording(active, isCode, outputs));
    NextKeepsInv(w, ArmRecording(active, isCode, outputs));
  }

  /** The reset button sets the subscription to Suppressed and leaves the
      timers alone; an execution notification only reaches the coordinator. */
  lemma ResetAndExecutedSteps(w: World, active: CellId, id: CellId, isCode: bool, node: Path)
    requires Inv(w)
    ensures Next(w, ResetButton(active)).coord == w.coord.(sub := Suppressed)
    ensures Next(w, Executed(id, isCode, node)) == w.(coord := OnExecuted(w.coord, id, isCode, node))
  {
  }

  /** The reset button's subscription toggle is one-shot: the first execution
      after it enqueues nothing and restores the subscription, the next code
      execution arms a settle timer again. */
  lemma ResetSuppressesOneExecution(c: Coord, id1: CellId, code1: bool, n1: Path, id2: CellId, n2: Path)
    ensures var c1 := OnExecuted(c.(sub := Suppressed), id1, code1, n1);
      c1.sub == Normal && c1.settling == c.settling
      && OnExecuted(c1, id2, true, n2).settling == c.settling + [Job(id2, n2)]
  {
  }

  /** Pressing reset twice before the re-run is pressing it once, for the
      subscription. */
  lemma ResetTwiceStaysSuppressed(w: World, active: CellId)
    requires Inv(w)
    ensures Inv(Next(w, ResetButton(active)))
    ensures Next(Next(w, ResetButton(active)), ResetButton(active)).coord.sub == Suppressed
  {
    NextKeepsInv(w, ResetButton(active));
  }

  /** A settle timer on an idle engine starts the drain from the head of the
      queue: the oldest enqueued cell is replayed first (FIFO). */
  lemma SettleDrainsOldestFirst(w: World)
    requires Inv(w) && !w.sched.dispatching && |w.coord.settling| > 0 && |w.sched.loops| == 0
    ensures var r := OnSettle(w);
      var first := (w.sched.ids + [w.coord.settling[0].id])[0];
      |r.sched.loops| == 1 && r.sched.loops[0].id == first && r.sched.loops[0].i == 0
      && r.sched.ids == (w.sched.ids + [w.coord.settling[0].id])[1..]
  {
  }

  /** A tick that throws leaves the drain stuck: its loop is gone but both
      flags stay set, so a later settle timer only enqueues, no poll ever
      applies its frame, and the recorder stays suppressed. */
  lemma FaultStallsDrain(w: World, doc: Element, hit: (real, real) -> Option<Path>, i: Input)
    requires Inv(w) && SchedOk(w.sched, w.rec.store) && |w.sched.loops| == 1
    requires var l := w.sched.loops[0];
      var f := w.rec.store[IndexOf(w.rec.store, l.id).value].f;
      l.i < |f.types| && ResolveEvent(doc, l, f, hit).None?
    requires Enabled(i) && (i.SettleFires? || i.PollFires? || i.OutputClick? || i.OutputMouseDown?
                            || i.DocMouseMove? || i.DocMouseUp?)
    ensures var w1 := Next(w, StepFires(0, doc, hit));
      Inv(w1) && |w1.sched.loops| == 0 && w1.sched.dispatching && w1.sched.callingBack
      && |Next(w1, i).sched.loops| == 0 && Next(w1, i).sched.dispatching
      && (!i.SettleFires? ==> Next(w1, i) == w1)
  {
    NextKeepsInv(w, StepFires(0, doc, hit));
  }
}

=== FILE: dom.dfy ===
/** The browser DOM as a finite immutable tree.

    An element is addressed by its path: the child indices followed from the
    `document` node. The path `[]` is the document itself (it carries no classes
    that are ever consulted), and an element at depth 1 is the document element,
    whose `parentElement` is `null`. */
module Dom {
  import opened Base

  /** Class of the rendered output of one cell output. */
  const OutputClass := "jp-OutputArea-output"
  /** Class of the wrapper (prompt + output) of one cell output. */
  const ChildClass := "jp-OutputArea-child"

  /** A bounding client rectangle. */
  datatype Box = Box(left: real, top: real, width: real, height: real)

  /** A box a fraction can be taken of: the model uses exact reals, so the
      division by the width and height needs both to be non-zero. */
  predicate Proper(b: Box) {
    b.width != 0.0 && b.height != 0.0
  }

  /** `clientLeft`, `clientTop` (border widths) and `scrollLeft`, `scrollTop`. */
  datatype Offsets = Offsets(clientLeft: real, clientTop: real, scrollLeft: real, scrollTop: real)

  datatype Element = Element(classes: set<string>, box: Box, offsets: Offsets, children: seq<Element>)

  type Path = seq<nat>

  /** The element reached from `e` by following `p` root-first. */
  function Get(e: Element, p: Path): Option<Element>
    decreases |p|
  {
    if p == [] then Some(e)
    else if p[0] < |e.children| then Get(e.children[p[0]], p[1..])
    else None
  }

  /** `p` names a live element (not the document node itself). */
  predicate IsElement(doc: Element, p: Path) {
    |p| >= 1 && Get(doc, p).Some?
  }

  predicate HasClass(doc: Element, p: Path, cls: string)
  {
    Get(doc, p).Some? && cls in Get(doc, p).value.classes
  }

  lemma {:induction false} GetAppend(e: Element, p: Path, q: Path)
    ensures Get(e, p + q) == (if Get(e, p).Some? then Get(Get(e, p).value, q) else None)
    decreases |p|
  {
    if p == [] {
      assert p + q == q;
    } else if p[0] < |e.children| {
      assert (p + q)[0] == p[0];
      assert (p + q)[1..] == p[1..] + q;
      GetAppend(e.children[p[0]], p[1..], q);
    } else {
      assert (p + q)[0] == p[0];
    }
  }

  /** Every prefix of a live path is live. */
  lemma {:induction false} GetPrefix(e: Element, p: Path, n: nat)
    requires n <= |p|
    requires Get(e, p).Some?
    ensures Get(e, p[..n]).Some?
  {
    assert p == p[..n] + p[n..];
    GetAppend(e, p[..n], p[n..]);
  }

  /** `e.getElementsByClassName(cls)[0]`: the first proper descendant of `e`
      in document order that carries `cls`, as a path relative to `e`. */
  function FirstByClass(e: Element, cls: string): (r: Option<Path>)
    ensures r.Some? ==> |r.value| >= 1 && HasClass(e, r.value, cls)
    ensures r.Some? ==> forall p: Path :: |p| >= 1 && Before(p, r.value) && Get(e, p).Some? ==> cls !in Get(e, p).value.classes
    ensures r.None? ==> NoneIn(e, cls)
  {
    FirstFrom(e, cls, 0)
  }

  /** `p` comes before `q` in document order (preorder): it is a proper prefix
      of `q`, or it is smaller at the first index where they differ. */
  predicate Before(p: Path, q: Path)
    decreases |q|
  {
    |q| > 0 && (|p| == 0 || p[0] < q[0] || (p[0] == q[0] && Before(p[1..], q[1..])))
  }

  /** No proper descendant of `e` carries `cls`. */
  ghost predicate NoneIn(e: Element, cls: string) {
    forall p: Path :: |p| >= 1 && Get(e, p).Some? ==> cls !in Get(e, p).value.classes
  }

  /** Search of the children `from..` of `e` and their subtrees, in document order. */
  function FirstFrom(e: Element, cls: string, from: nat): (r: Option<Path>)
    ensures r.Some? ==> |r.value| >= 1 && r.value[0] >= from && HasClass(e, r.value, cls)
    ensures r.Some? ==> forall p: Path :: |p| >= 1 && p[0] >= from && Before(p, r.value) && Get(e, p).Some? ==> cls !in Get(e, p).value.classes
    ensures r.None? ==> forall p: Path :: |p| >= 1 && p[0] >= from && Get(e, p).Some? ==> cls !in Get(e, p).value.classes
    decreases e, |e.children| - from
  {
    if from >= |e.children| then None
    else
      var c := e.children[from];
      if cls in c.classes then Some([from])
      else match FirstFrom(c, cls, 0)
        case Some(q) =>
          assert Get(e, [from] + q) == Get(c, q) by { assert ([from] + q)[1..] == q; }
          forall p: Path | |p| >= 1 && p[0] >= from && Before(p, [from] + q) && Get(e, p).Some?
            ensures cls !in Get(e, p).value.classes
          {
            assert ([from] + q)[0] == from && ([from] + q)[1..] == q;
            assert Get(e, p) == Get(c, p[1..]);
            if |p| == 1 {
              assert p[1..] == [];
            }
          }
          Some([from] + q)
        case None =>
          var r := FirstFrom(e, cls, from + 1);
          assert r.None? ==> forall p: Path :: |p| >= 1 && p[0] >= from && Get(e, p).Some? ==> cls !in Get(e, p).value.classes by {
            if r.None? {
              forall p: Path | |p| >= 1 && p[0] >= from && Get(e, p).Some?
                ensures cls !in Get(e, p).value.classes
              {
                if p[0] == from {
                  assert Get(e, p) == Get(c, p[1..]);
                  if |p| == 1 {
                    assert p[1..] == [];
                  }
                }
              }
            }
          }
          r
  }

  /** Follows an innermost-first trail of child indices from `e`, last entry
      first, as the replay loop does; yields the relative path reached, or
      `None` when an index falls outside the children (the source then reads a
      property of `undefined`). */
  function Descend(e: Element, t: seq<nat>): (r: Option<Path>)
    ensures r.Some? ==> r.value == Reverse(t) && Get(e, r.value).Some?
    decreases |t|
  {
    if t == [] then Some([])
    else
      var k := t[|t| - 1];
      if k < |e.children| then
        match Descend(e.children[k], t[..|t| - 1])
        case Some(rest) =>
          assert ([k] + rest)[1..] == rest;
          Some([k] + rest)
        case None => None
      else None
  }
}

=== FILE: pairing.dfy ===
/** `findCorrespondingMarkdownCell`: which comic markdown cell annotates a
    comic code cell, as an index computation over the notebook's cells. */
module Pairing {
  import opened Base

  datatype CellKind = Code | Markdown | Raw

  /** What the pairing reads of a cell: its type and whether it is a comic
      cell (tagged comic or intermediate). */
  datatype Shape = Shape(kind: CellKind, comic: bool)

  predicate ComicCode(c: Shape) { c.kind == Code && c.comic }
  predicate ComicMarkdown(c: Shape) { c.kind == Markdown && c.comic }

  /** Length of the run of comic code cells that ends just before `i`. */
  function CodeRunBefore(cells: seq<Shape>, i: nat): (n: nat)
    requires i <= |cells|
    ensures n <= i
    ensures forall q :: i - n <= q < i ==> ComicCode(cells[q])
    ensures n < i ==> !ComicCode(cells[i - 1 - n])
  {
    if i == 0 || !ComicCode(cells[i - 1]) then 0 else 1 + CodeRunBefore(cells, i - 1)
  }

  /** Length of the run of comic markdown cells that ends at `j` (inclusive). */
  function MarkdownRunAt(cells: seq<Shape>, j: nat): (n: nat)
    requires j < |cells|
    ensures n <= j + 1
    ensures forall q :: j + 1 - n <= q <= j ==> ComicMarkdown(cells[q])
    ensures n <= j ==> !ComicMarkdown(cells[j - n])
  {
    if !ComicMarkdown(cells[j]) then 0 else if j == 0 then 1 else 1 + MarkdownRunAt(cells, j - 1)
  }

  /** The pairing the loops compute: with `c` comic code cells just before
      cell `i` and, before those, a run of `m` comic markdown cells that does
      not start at cell 0, the markdown cell `c` places into that run, when
      the run is longer than `c`. No pairing for cell 0, for a run too short,
      or (as the code's second loop runs out) for a markdown run that reaches
      cell 0. */
  function Paired(cells: seq<Shape>, i: nat): Option<nat>
  {
    if i >= |cells| || i == 0 then None
    else
      var c := CodeRunBefore(cells, i);
      if c == i then None
      else
        var s := i - 1 - c;
        var m := MarkdownRunAt(cells, s);
        if m == s + 1 then None
        else if c < m then Some(s + 1 - m + c)
        else None
  }

  /** What a pairing means: the paired cell is a comic markdown cell at offset
      `c` from the start of the markdown run that ends right before the `c`
      comic code cells preceding `i`, and that run starts after cell 0. */
  lemma PairedMeaning(cells: seq<Shape>, i: nat, k: nat)
    requires Paired(cells, i) == Some(k)
    ensures 0 < i < |cells| && k < i
    ensures ComicMarkdown(cells[k])
    ensures var c := CodeRunBefore(cells, i);
      var start := i - c - MarkdownRunAt(cells, i - 1 - c);
      start >= 1 && !ComicMarkdown(cells[start - 1]) && k == start + c
      && (forall q :: start <= q < i - c ==> ComicMarkdown(cells[q]))
      && (forall q :: i - c <= q < i ==> ComicCode(cells[q]))
  {
  }

  /** Without a comic markdown cell before the code run, nothing pairs. */
  lemma NoMarkdownNoPair(cells: seq<Shape>, i: nat)
    requires i < |cells|
    requires forall q :: 0 <= q < i ==> !ComicMarkdown(cells[q])
    ensures Paired(cells, i).None?
  {
  }

  /** `findCorrespondingMarkdownCell` with its two backward loops; `i` is the
      position of the cell in the notebook (a position past the end stands for
      a cell that is not in it). */
  method FindCorrespondingMarkdownCell(cells: seq<Shape>, i: nat) returns (r: Option<nat>)
    ensures r == Paired(cells, i)
  {
    if i >= |cells| {
      return None;
    }
    var codeCount := 0;
    var split := -1;
    var j: int := i - 1;
    var broke := false;
    while j >= 0 && !broke
      invariant -1 <= j <= i - 1
      invariant !broke ==> codeCount == i - 1 - j && CodeRunBefore(cells, i) == codeCount + CodeRunBefore(cells, j + 1)
      invariant broke ==> 0 <= j == split && codeCount == CodeRunBefore(cells, i) == i - 1 - j
      invariant !broke && j < i - 1 ==> split == j + 1
      invariant !broke && j == i - 1 ==> split == -1
      decreases j + 1, if broke then 0 else 1
    {
      split := j;
      if !ComicCode(cells[j]) {
        broke := true;
      } else {
        codeCount := codeCount + 1;
        j := j - 1;
      }
    }
    assert !broke ==> j == -1 && codeCount == i;
    j := split;
    while j >= 0
      invariant -1 <= j <= split
      invariant split >= 0 ==> split < |cells|
      invariant split >= 0 && j >= 0 ==> MarkdownRunAt(cells, split) == split - j + MarkdownRunAt(cells, j)
      invariant split >= 0 && j == -1 ==> MarkdownRunAt(cells, split) == split + 1
    {
      if !ComicMarkdown(cells[j]) {
        var markdownCellIndex := j + 1 + codeCount;
        if markdownCellIndex <= split {
          return Some(markdownCellIndex);
        } else {
          break;
        }
      }
      j := j - 1;
    }
    return None;
  }
}

=== FILE: recorder.dfy ===
/** The Recorder: the handlers that append pointer events to the active cell's
    trail, the two DOM walks they use, and arming / stopping a recording. */
module Recorder {
  import opened Base
  import opened Dom
  import opened Trails
  import opened Store

  /** What a handler reads of a `MouseEvent`: client coordinates, the target
      element, and what `document.elementFromPoint` answers at those
      coordinates (`None` for `null`). */
  datatype Pointer = Pointer(clientX: real, clientY: real, target: Path, hit: Option<Path>)

  /** The elements an output-area event names are live elements of `doc`. */
  predicate Targets(doc: Element, ev: Pointer) {
    IsElement(doc, ev.target) && (ev.hit.Some? ==> IsElement(doc, ev.hit.value))
  }

  /** Drag state: whether the document-level `mousemove`/`mouseup` listeners are
      attached, and the anchor rectangle `gRect` taken at `mousedown`. */
  datatype Drag = Drag(listening: bool, anchor: Option<Box>)

  /** The listeners are attached exactly while an anchor is held, and an anchor
      is a box fractions can be taken of. */
  predicate DragOk(d: Drag) {
    (d.listening <==> d.anchor.Some?) && (d.anchor.Some? ==> Proper(d.anchor.value))
  }

  /** Recorder state: the Trail Store, the drag state, and the output elements
      carrying the click/dblclick/mousedown listeners. */
  datatype Rec = Rec(store: Store, drag: Drag, listeners: set<Path>)

  /** Position recorded as a fraction of a box side. */
  function Rel(client: real, origin: real, size: real): real
    requires size != 0.0
  {
    (client - origin) / size
  }

  /** Position replayed from a fraction of a box side. */
  function Abs(frac: real, origin: real, size: real): real
  {
    size * frac + origin
  }

  /** Replay inverts recording when the box is unchanged. */
  lemma AbsInvertsRel(client: real, origin: real, size: real)
    requires size != 0.0
    ensures Abs(Rel(client, origin, size), origin, size) == client
  {
    calc {
      Abs(Rel(client, origin, size), origin, size);
      size * ((client - origin) / size) + origin;
      { assert size * ((client - origin) / size) == client - origin; }
      client;
    }
  }

  // ---------------------------------------------------------------- DOM walks

  /** Length of the innermost prefix of `p` (itself included, the document
      excluded) whose element carries `cls`. */
  function InnermostWith(doc: Element, p: Path, cls: string): (r: Option<nat>)
    requires IsElement(doc, p)
    ensures r.Some? ==> (1 <= r.value <= |p| && HasClass(doc, p[..r.value], cls)
                         && forall n :: r.value < n <= |p| ==> !HasClass(doc, p[..n], cls))
    ensures r.None? ==> forall n :: 1 <= n <= |p| ==> !HasClass(doc, p[..n], cls)
    decreases |p|
  {
    assert p[..|p|] == p;
    if cls in Get(doc, p).value.classes then Some(|p|)
    else if |p| == 1 then None
    else
      var parent := p[..|p| - 1];
      GetPrefix(doc, p, |p| - 1);
      assert forall n :: 0 <= n <= |parent| ==> parent[..n] == p[..n];
      InnermostWith(doc, parent, cls)
  }

  /** Outcome of `getOutputAreaRect`. */
  datatype Resolved =
    | Found(index: nat, output: Path, box: Box)  // sibling index of the output wrapper, its output element, that element's box
    | Missing                                    // no `jp-OutputArea-child` ancestor: `index: -1`
    | Fails                                      // the walk reads a property of `null`/`undefined`

  /** `getOutputAreaRect`: the nearest `jp-OutputArea-child` ancestor-or-self
      of the target, its index among its parent's children, and the first
      `jp-OutputArea-output` inside it. */
  function OutputAreaRect(doc: Element, target: Path): (r: Resolved)
    requires IsElement(doc, target)
    ensures r.Found? ==> (exists n :: 2 <= n <= |target| && InnermostWith(doc, target, ChildClass) == Some(n)
                            && r.index == target[n - 1]
                            && FirstByClass(Get(doc, target[..n]).value, OutputClass).Some?
                            && r.output == target[..n] + FirstByClass(Get(doc, target[..n]).value, OutputClass).value
                            && HasClass(doc, r.output, OutputClass) && r.box == Get(doc, r.output).value.box)
    ensures r.Missing? <==> forall n :: 1 <= n <= |target| ==> !HasClass(doc, target[..n], ChildClass)
    ensures r.Fails? <==> (InnermostWith(doc, target, ChildClass).Some?
                           && var n := InnermostWith(doc, target, ChildClass).value;
                           n == 1 || FirstByClass(Get(doc, target[..n]).value, OutputClass).None?)
  {
    match InnermostWith(doc, target, ChildClass)
    case None => Missing
    case Some(n) =>
      if n == 1 then Fails  // the wrapper would be the document element: its parentElement is null
      else
        var q := target[..n];
        match FirstByClass(Get(doc, q).value, OutputClass)
        case None => Fails  // `getBoundingClientRect` of undefined
        case Some(rel) =>
          var out := q + rel;
          GetAppend(doc, q, rel);
          assert out[..n] == q;
          Found(q[n - 1], out, Get(doc, out).value.box)
  }

  /** A resolved output element has a box fractions can be taken of. */
  predicate ResolvesProper(doc: Element, target: Path)
    requires IsElement(doc, target)
  {
    OutputAreaRect(doc, target).Found? ==> Proper(OutputAreaRect(doc, target).box)
  }

  /** The loop of `getIndexTrail` from a live element: sibling indices pushed
      innermost-first until an element carrying `jp-OutputArea-output` is met.
      Passing the document element without meeting one reads
      `null.children` and throws. */
  function WalkUp(doc: Element, p: Path): (r: Result<seq<nat>>)
    requires IsElement(doc, p)
    ensures r.Ok? ==> |r.value| < |p|
    ensures r.Thrown? <==> forall n :: 1 <= n <= |p| ==> !HasClass(doc, p[..n], OutputClass)
    decreases |p|
  {
    assert p[..|p|] == p;
    if OutputClass in Get(doc, p).value.classes then Ok([])
    else if |p| == 1 then Thrown
    else
      GetPrefix(doc, p, |p| - 1);
      var parent := p[..|p| - 1];
      assert forall n :: 0 <= n <= |parent| ==> parent[..n] == p[..n];
      match WalkUp(doc, parent)
      case Ok(t) => Ok([p[|p| - 1]] + t)
      case Thrown => Thrown
  }

  /** `getIndexTrail`: the descent trail of the element under the pointer;
      empty when `elementFromPoint` answers `null`. */
  function IndexTrail(doc: Element, hit: Option<Path>): (r: Result<seq<nat>>)
    requires hit.Some? ==> IsElement(doc, hit.value)
    ensures hit.None? ==> r == Ok([])
    ensures hit.Some? ==> (r.Thrown? <==> forall n :: 1 <= n <= |hit.value| ==> !HasClass(doc, hit.value[..n], OutputClass))
  {
    match hit
    case None => Ok([])
    case Some(p) => WalkUp(doc, p)
  }

  /** Shape of a trail: read backwards it is the tail of the path below the
      nearest `jp-OutputArea-output` ancestor-or-self. */
  lemma {:induction false} WalkUpShape(doc: Element, p: Path)
    requires IsElement(doc, p) && WalkUp(doc, p).Ok?
    ensures var t := WalkUp(doc, p).value;
      var q := p[..|p| - |t|];
      |q| >= 1 && HasClass(doc, q, OutputClass)
      && (forall n :: |q| < n <= |p| ==> !HasClass(doc, p[..n], OutputClass))
      && Reverse(t) == p[|q|..]
    decreases |p|
  {
    var t := WalkUp(doc, p).value;
    assert p[..|p|] == p;
    if OutputClass !in Get(doc, p).value.classes {
      var parent := p[..|p| - 1];
      GetPrefix(doc, p, |p| - 1);
      WalkUpShape(doc, parent);
      var t' := WalkUp(doc, parent).value;
      assert t == [p[|p| - 1]] + t';
      assert Reverse(t) == Reverse(t') + [p[|p| - 1]] by {
        ReverseCons(p[|p| - 1], t');
      }
      assert forall n :: 0 <= n <= |parent| ==> parent[..n] == p[..n];
    }
  }

  lemma {:induction false} ReverseCons<T>(x: T, s: seq<T>)
    ensures Reverse([x] + s) == Reverse(s) + [x]
  {
    var l := Reverse([x] + s);
    var r := Reverse(s) + [x];
    assert |l| == |r|;
    forall i | 0 <= i < |l| ensures l[i] == r[i] {
      if i < |s| {
        assert l[i] == ([x] + s)[|s| - i];
      }
    }
  }

  /** `Descend` reaches exactly the element `Reverse(t)` names, whenever that
      element exists. */
  lemma {:induction false} DescendReaches(e: Element, t: seq<nat>)
    requires Get(e, Reverse(t)).Some?
    ensures Descend(e, t) == Some(Reverse(t))
    decreases |t|
  {
    if t != [] {
      var k := t[|t| - 1];
      var front := t[..|t| - 1];
      assert Reverse(t) == [k] + Reverse(front);
      assert Reverse(t)[1..] == Reverse(front);
      DescendReaches(e.children[k], front);
    }
  }

  /** Descent-path round trip: the trail recorded for the element under the
      pointer leads, followed last-to-first from the nearest
      `jp-OutputArea-output` ancestor-or-self, back to that element in the
      unchanged tree. */
  lemma IndexTrailRoundTrip(doc: Element, p: Path)
    requires IsElement(doc, p) && IndexTrail(doc, Some(p)).Ok?
    ensures var t := IndexTrail(doc, Some(p)).value;
      var q := p[..|p| - |t|];
      HasClass(doc, q, OutputClass)
      && Descend(Get(doc, q).value, t).Some?
      && q + Descend(Get(doc, q).value, t).value == p
  {
    var t := IndexTrail(doc, Some(p)).value;
    WalkUpShape(doc, p);
    var q := p[..|p| - |t|];
    assert p == q + p[|q|..];
    GetAppend(doc, q, p[|q|..]);
    DescendReaches(Get(doc, q).value, t);
  }

  // ----------------------------------------------------------------- handlers

  /** Appends one event to the record of `id` (looked up, or created and
      hydrated): one entry on each of the four per-event sequences and, when
      `trail` is present, one descent trail. */
  function Append(s: Store, cells: seq<Cell>, id: CellId, kind: EventKind, ci: Option<nat>,
                  x: real, y: real, trail: Option<seq<nat>>): (r: Store)
    ensures IndexOf(r, id).Some?
    ensures var before := TrailOf(s, cells, id).f;
      var after := r[IndexOf(r, id).value].f;
      after.types == before.types + [kind] && after.xs == before.xs + [x]
      && after.ys == before.ys + [y] && after.childIndex == before.childIndex + [ci]
      && after.clickTrails == before.clickTrails + (if trail.Some? then [trail.value] else [])
    ensures |r| >= |s| && forall j :: 0 <= j < |s| && s[j].id != id ==> r[j] == s[j]
    ensures |r| == |s| + (if IndexOf(s, id).None? then 1 else 0)
    ensures IdsExtend(s, r)
  {
    var (s1, k) := GetMouseActions(s, cells, id);
    var f := s1[k].f;
    var f' := Fields(f.types + [kind], f.xs + [x], f.ys + [y], f.childIndex + [ci],
                     f.clickTrails + (if trail.Some? then [trail.value] else []));
    Put(s1, id, Trail(id, f'))
  }

  lemma AppendKeeps(s: Store, cells: seq<Cell>, id: CellId, kind: EventKind, ci: Option<nat>,
                    x: real, y: real, trail: Option<seq<nat>>)
    requires UniqueIds(s) && AllAligned(s) && SavedAligned(cells)
    ensures UniqueIds(Append(s, cells, id, kind, ci, x, y, trail))
    ensures AllAligned(Append(s, cells, id, kind, ci, x, y, trail))
  {
    var (s1, k) := GetMouseActions(s, cells, id);
    GetMouseActionsKeepsUnique(s, cells, id);
    GetMouseActionsAligned(s, cells, id);
  }

  /** `recordClick`, bound to click and dblclick on output elements. */
  function RecordClick(r: Rec, cells: seq<Cell>, doc: Element, callingBack: bool,
                       active: CellId, kind: EventKind, ev: Pointer): (r': Rec)
    requires IsClick(kind) && Targets(doc, ev) && ResolvesProper(doc, ev.target)
    ensures r'.drag == r.drag && r'.listeners == r.listeners
    ensures callingBack || !OutputAreaRect(doc, ev.target).Found? ==> r' == r
    ensures !callingBack && OutputAreaRect(doc, ev.target).Found? ==>
      var rect := OutputAreaRect(doc, ev.target);
      var trail := IndexTrail(doc, ev.hit);
      r'.store == Append(r.store, cells, active, kind, Some(rect.index),
                         Rel(ev.clientX, rect.box.left, rect.box.width),
                         Rel(ev.clientY, rect.box.top, rect.box.height),
                         if trail.Ok? then Some(trail.value) else None)
  {
    if callingBack then r
    else match OutputAreaRect(doc, ev.target)
      case Found(index, _, box) =>
        // the four pushes happen before getIndexTrail runs; when it throws,
        // the descent trail is never pushed
        var trail := IndexTrail(doc, ev.hit);
        r.(store := Append(r.store, cells, active, kind, Some(index),
                           Rel(ev.clientX, box.left, box.width), Rel(ev.clientY, box.top, box.height),
                           if trail.Ok? then Some(trail.value) else None))
      case _ => r
  }

  /** `recordMouseDown`, bound to mousedown on output elements: records the
      event, anchors the drag on the output element's box and attaches the
      document-level listeners. */
  function RecordMouseDown(r: Rec, cells: seq<Cell>, doc: Element, callingBack: bool,
                           active: CellId, ev: Pointer): (r': Rec)
    requires IsElement(doc, ev.target) && ResolvesProper(doc, ev.target)
    ensures r'.listeners == r.listeners
    ensures callingBack || !OutputAreaRect(doc, ev.target).Found? ==> r' == r
    ensures !callingBack && OutputAreaRect(doc, ev.target).Found? ==>
      var rect := OutputAreaRect(doc, ev.target);
      r'.drag == Drag(true, Some(rect.box))
      && r'.store == Append(r.store, cells, active, MouseDown, Some(rect.index),
                            Rel(ev.clientX, rect.box.left, rect.box.width),
                            Rel(ev.clientY, rect.box.top, rect.box.height), None)
  {
    if callingBack then r
    else match OutputAreaRect(doc, ev.target)
      case Found(index, _, box) =>
        Rec(Append(r.store, cells, active, MouseDown, Some(index),
                   Rel(ev.clientX, box.left, box.width), Rel(ev.clientY, box.top, box.height), None),
            Drag(true, Some(box)), r.listeners)
      case _ => r
  }

  /** The last recorded child index of a record, `None` (`undefined`) when the
      sequence is empty. */
  function LastIndex(f: Fields): Option<nat>
  {
    if |f.childIndex| == 0 then None else f.childIndex[|f.childIndex| - 1]
  }

  /** A `mousemove` on the document: `recordMouseMove` runs only while the
      document-level listener is attached. It re-pushes the last child index
      and measures against the anchor box. */
  function DocumentMouseMove(r: Rec, cells: seq<Cell>, callingBack: bool, active: CellId, ev: Pointer): (r': Rec)
    requires DragOk(r.drag)
    ensures r'.drag == r.drag && r'.listeners == r.listeners
    ensures !r.drag.listening || callingBack ==> r' == r
    ensures r.drag.listening && !callingBack ==>
      var b := r.drag.anchor.value;
      r'.store == Append(r.store, cells, active, MouseMove, LastIndex(TrailOf(r.store, cells, active).f),
                         Rel(ev.clientX, b.left, b.width), Rel(ev.clientY, b.top, b.height), None)
  {
    if !r.drag.listening || callingBack then r
    else
      var b := r.drag.anchor.value;
      r.(store := Append(r.store, cells, active, MouseMove, LastIndex(TrailOf(r.store, cells, active).f),
                         Rel(ev.clientX, b.left, b.width), Rel(ev.clientY, b.top, b.height), None))
  }

  /** A `mouseup` on the document: `recordDocumentMouseUp` records like a move,
      then detaches both document listeners and drops the anchor. Suppressed,
      it returns before detaching anything. */
  function DocumentMouseUp(r: Rec, cells: seq<Cell>, callingBack: bool, active: CellId, ev: Pointer): (r': Rec)
    requires DragOk(r.drag)
    ensures r'.listeners == r.listeners
    ensures !r.drag.listening || callingBack ==> r' == r
    ensures r.drag.listening && !callingBack ==>
      var b := r.drag.anchor.value;
      r'.drag == Drag(false, None)
      && r'.store == Append(r.store, cells, active, MouseUp, LastIndex(TrailOf(r.store, cells, active).f),
                            Rel(ev.clientX, b.left, b.width), Rel(ev.clientY, b.top, b.height), None)
  {
    if !r.drag.listening || callingBack then r
    else
      var b := r.drag.anchor.value;
      Rec(Append(r.store, cells, active, MouseUp, LastIndex(TrailOf(r.store, cells, active).f),
                 Rel(ev.clientX, b.left, b.width), Rel(ev.clientY, b.top, b.height), None),
          Drag(false, None), r.listeners)
  }

  /** The moves of a drag, in order. */
  function Moves(r: Rec, cells: seq<Cell>, active: CellId, evs: seq<Pointer>): (r': Rec)
    requires DragOk(r.drag)
    ensures r'.drag == r.drag
    decreases |evs|
  {
    if evs == [] then r
    else Moves(DocumentMouseMove(r, cells, false, active, evs[0]), cells, active, evs[1..])
  }

  // ------------------------------------------------------------ invariants

  /** What the recorder keeps true of its state and of the persisted metadata. */
  predicate RecOk(r: Rec, cells: seq<Cell>) {
    UniqueIds(r.store) && AllAligned(r.store) && SavedAligned(cells) && DragOk(r.drag)
  }

  /** A click or dblclick keeps ids unique, the four per-event sequences of
      every record equal in length, and the drag state consistent. */
  lemma ClickKeepsRecOk(r: Rec, cells: seq<Cell>, doc: Element, callingBack: bool,
                        active: CellId, kind: EventKind, ev: Pointer)
    requires RecOk(r, cells) && IsClick(kind) && Targets(doc, ev) && ResolvesProper(doc, ev.target)
    ensures RecOk(RecordClick(r, cells, doc, callingBack, active, kind, ev), cells)
  {
    var rect := OutputAreaRect(doc, ev.target);
    if !callingBack && rect.Found? {
      var trail := IndexTrail(doc, ev.hit);
      AppendKeeps(r.store, cells, active, kind, Some(rect.index),
                  Rel(ev.clientX, rect.box.left, rect.box.width), Rel(ev.clientY, rect.box.top, rect.box.height),
                  if trail.Ok? then Some(trail.value) else None);
    }
  }

  /** A mousedown keeps the recorder invariant; the anchor it sets is a box
      fractions can be taken of. */
  lemma MouseDownKeepsRecOk(r: Rec, cells: seq<Cell>, doc: Element, callingBack: bool,
                            active: CellId, ev: Pointer)
    requires RecOk(r, cells) && IsElement(doc, ev.target) && ResolvesProper(doc, ev.target)
    ensures RecOk(RecordMouseDown(r, cells, doc, callingBack, active, ev), cells)
  {
    var rect := OutputAreaRect(doc, ev.target);
    if !callingBack && rect.Found? {
      AppendKeeps(r.store, cells, active, MouseDown, Some(rect.index),
                  Rel(ev.clientX, rect.box.left, rect.box.width), Rel(ev.clientY, rect.box.top, rect.box.height), None);
    }
  }

  /** A document mousemove keeps the recorder invariant. */
  lemma MouseMoveKeepsRecOk(r: Rec, cells: seq<Cell>, callingBack: bool, active: CellId, ev: Pointer)
    requires RecOk(r, cells)
    ensures RecOk(DocumentMouseMove(r, cells, callingBack, active, ev), cells)
  {
    if r.drag.listening && !callingBack {
      var b := r.drag.anchor.value;
      AppendKeeps(r.store, cells, active, MouseMove, LastIndex(TrailOf(r.store, cells, active).f),
                  Rel(ev.clientX, b.left, b.width), Rel(ev.clientY, b.top, b.height), None);
    }
  }

  /** A document mouseup keeps the recorder invariant: the listeners go
      together with the anchor. */
  lemma MouseUpKeepsRecOk(r: Rec, cells: seq<Cell>, callingBack: bool, active: CellId, ev: Pointer)
    requires RecOk(r, cells)
    ensures RecOk(DocumentMouseUp(r, cells, callingBack, active, ev), cells)
  {
    if r.drag.listening && !callingBack {
      var b := r.drag.anchor.value;
      AppendKeeps(r.store, cells, active, MouseUp, LastIndex(TrailOf(r.store, cells, active).f),
                  Rel(ev.clientX, b.left, b.width), Rel(ev.clientY, b.top, b.height), None);
    }
  }

  /** Only click and dblclick events add descent trails: a handler keeps every
      record's trail count equal to its click count, except a click whose
      `getIndexTrail` throws, which leaves the four sequences one entry ahead. */
  lemma HandlersKeepClicksAligned(r: Rec, cells: seq<Cell>, doc: Element, callingBack: bool,
                                  active: CellId, kind: EventKind, ev: Pointer)
    requires ClicksAligned(TrailOf(r.store, cells, active).f)
    ensures IsClick(kind) && Targets(doc, ev) && ResolvesProper(doc, ev.target) && IndexTrail(doc, ev.hit).Ok? ==>
      var r' := RecordClick(r, cells, doc, callingBack, active, kind, ev);
      ClicksAligned(TrailOf(r'.store, cells, active).f)
    ensures IsElement(doc, ev.target) && ResolvesProper(doc, ev.target) ==>
      var r' := RecordMouseDown(r, cells, doc, callingBack, active, ev);
      ClicksAligned(TrailOf(r'.store, cells, active).f)
    ensures DragOk(r.drag) ==>
      ClicksAligned(TrailOf(DocumentMouseMove(r, cells, callingBack, active, ev).store, cells, active).f)
    ensures DragOk(r.drag) ==>
      ClicksAligned(TrailOf(DocumentMouseUp(r, cells, callingBack, active, ev).store, cells, active).f)
  {
    var f := TrailOf(r.store, cells, active).f;
    forall k: EventKind { ClickCountAppend(f.types, k); }
  }

  /** A click whose pointer element has no `jp-OutputArea-output` ancestor
      makes `getIndexTrail` throw after the four pushes: the record then holds
      one click more than it holds descent trails. */
  lemma ThrowingClickMisaligns(r: Rec, cells: seq<Cell>, doc: Element, active: CellId,
                               kind: EventKind, ev: Pointer)
    requires IsClick(kind) && Targets(doc, ev) && ResolvesProper(doc, ev.target)
    requires OutputAreaRect(doc, ev.target).Found? && IndexTrail(doc, ev.hit).Thrown?
    requires ClicksAligned(TrailOf(r.store, cells, active).f)
    ensures !ClicksAligned(TrailOf(RecordClick(r, cells, doc, false, active, kind, ev).store, cells, active).f)
  {
    ClickCountAppend(TrailOf(r.store, cells, active).f.types, kind);
  }

  /** Drags share one index: a mousedown resolved at output index `k`, any
      number of moves and one mouseup leave `k` as the child index of every
      event of the drag, detach the document listeners and drop the anchor. */
  lemma {:induction false} DragSharesIndex(r: Rec, cells: seq<Cell>, doc: Element, active: CellId,
                                           down: Pointer, moves: seq<Pointer>, up: Pointer)
    requires DragOk(r.drag) && IsElement(doc, down.target) && ResolvesProper(doc, down.target)
    requires OutputAreaRect(doc, down.target).Found?
    ensures var k := OutputAreaRect(doc, down.target).index;
      var r1 := RecordMouseDown(r, cells, doc, false, active, down);
      var r3 := DocumentMouseUp(Moves(r1, cells, active, moves), cells, false, active, up);
      var ci := TrailOf(r3.store, cells, active).f.childIndex;
      r3.drag == Drag(false, None)
      && |ci| >= |moves| + 2
      && forall j :: |ci| - (|moves| + 2) <= j < |ci| ==> ci[j] == Some(k)
  {
    var k := OutputAreaRect(doc, down.target).index;
    var r1 := RecordMouseDown(r, cells, doc, false, active, down);
    assert r1.drag.listening;
    var ci1 := r1.store[IndexOf(r1.store, active).value].f.childIndex;
    assert ci1[|ci1| - 1] == Some(k);
    MovesRepeat(r1, cells, active, moves, k, 1);
    var r2 := Moves(r1, cells, active, moves);
    UpRepeats(r2, cells, active, up, k, |moves| + 1);
  }

  /** The mouseup re-pushes the anchor index once more and ends the drag. */
  lemma UpRepeats(r: Rec, cells: seq<Cell>, active: CellId, ev: Pointer, k: nat, m: nat)
    requires DragOk(r.drag) && r.drag.listening
    requires IndexOf(r.store, active).Some? && m >= 1
    requires var ci := r.store[IndexOf(r.store, active).value].f.childIndex;
      |ci| >= m && forall j :: |ci| - m <= j < |ci| ==> ci[j] == Some(k)
    ensures var r' := DocumentMouseUp(r, cells, false, active, ev);
      var ci := TrailOf(r'.store, cells, active).f.childIndex;
      r'.drag == Drag(false, None)
      && |ci| >= m + 1 && forall j :: |ci| - (m + 1) <= j < |ci| ==> ci[j] == Some(k)
  {
    var ci := r.store[IndexOf(r.store, active).value].f.childIndex;
    assert LastIndex(TrailOf(r.store, cells, active).f) == Some(k);
    var r' := DocumentMouseUp(r, cells, false, active, ev);
    assert TrailOf(r'.store, cells, active) == r'.store[IndexOf(r'.store, active).value];
    assert TrailOf(r'.store, cells, active).f.childIndex == ci + [Some(k)];
  }

  /** Each move re-pushes the anchor index: if the last `m` child indices of
      the active record are `Some(k)`, after the moves the last `m + |evs|`
      are. */
  lemma {:induction false} MovesRepeat(r: Rec, cells: seq<Cell>, active: CellId, evs: seq<Pointer>, k: nat, m: nat)
    requires DragOk(r.drag) && r.drag.listening
    requires IndexOf(r.store, active).Some? && m >= 1
    requires var ci := r.store[IndexOf(r.store, active).value].f.childIndex;
      |ci| >= m && forall j :: |ci| - m <= j < |ci| ==> ci[j] == Some(k)
    ensures var r' := Moves(r, cells, active, evs);
      IndexOf(r'.store, active).Some?
      && var ci := r'.store[IndexOf(r'.store, active).value].f.childIndex;
      |ci| >= m + |evs| && forall j :: |ci| - (m + |evs|) <= j < |ci| ==> ci[j] == Some(k)
    decreases |evs|
  {
    if evs != [] {
      var r1 := DocumentMouseMove(r, cells, false, active, evs[0]);
      var ci := r.store[IndexOf(r.store, active).value].f.childIndex;
      assert LastIndex(TrailOf(r.store, cells, active).f) == Some(k);
      var ci1 := r1.store[IndexOf(r1.store, active).value].f.childIndex;
      assert ci1 == ci + [Some(k)];
      MovesRepeat(r1, cells, active, evs[1..], k, m + 1);
    }
  }

  // ------------------------------------------------------- arming and stopping

  /** The trail part of arming: a blank record is added when the id is absent
      (not hydrated), then the record is reset. */
  function ArmTrail(s: Store, cells: seq<Cell>, id: CellId): (r: Store)
    ensures IndexOf(r, id).Some? && r[IndexOf(r, id).value].f == NoFields
    ensures |r| >= |s| && forall j :: 0 <= j < |s| && s[j].id != id ==> r[j] == s[j]
    ensures |r| == |s| + (if IndexOf(s, id).None? then 1 else 0)
    ensures IdsExtend(s, r)
    ensures UniqueIds(s) ==> UniqueIds(r)
    ensures AllAligned(s) ==> AllAligned(r)
  {
    var s1 := if IndexOf(s, id).None? then s + [Trail(id, NoFields)] else s;
    assert IndexOf(s1, id).Some? by { if IndexOf(s, id).None? { assert s1[|s|].id == id; } }
    var (s2, k) := GetMouseActions(s1, cells, id);
    Put(s2, id, Reset(s2[k]))
  }

  /** Arming a recording on the active cell: when it is a code cell, its
      trail is reset and the click/dblclick/mousedown listeners are (re)attached
      to its output elements; attaching twice is attaching once. */
  function Arm(r: Rec, cells: seq<Cell>, active: CellId, isCode: bool, outputs: set<Path>): (r': Rec)
    ensures r'.drag == r.drag
    ensures !isCode ==> r' == r
    ensures isCode ==> (r'.listeners == r.listeners + outputs
                        && IndexOf(r'.store, active).Some? && r'.store[IndexOf(r'.store, active).value].f == NoFields)
    ensures isCode ==> r'.store == ArmTrail(r.store, cells, active)
  {
    if !isCode then r else Rec(ArmTrail(r.store, cells, active), r.drag, r.listeners + outputs)
  }

  /** Re-arming is idempotent. */
  lemma ArmTwice(r: Rec, cells: seq<Cell>, active: CellId, isCode: bool, outputs: set<Path>)
    ensures Arm(Arm(r, cells, active, isCode, outputs), cells, active, isCode, outputs)
         == Arm(r, cells, active, isCode, outputs)
  {
    if isCode {
      var s1 := ArmTrail(r.store, cells, active);
      var k := IndexOf(s1, active).value;
      assert ArmTrail(s1, cells, active) == s1[k := Trail(active, NoFields)];
      assert s1[k] == Trail(active, NoFields);
    }
  }

  /** Stopping a recording on the active code cell persists its record. */
  function Stop(s: Store, cells: seq<Cell>, active: CellId, isCode: bool): (r: (Store, seq<Cell>))
    ensures !isCode ==> r == (s, cells)
    ensures isCode ==> r.0 == GetMouseActions(s, cells, active).0
    ensures isCode ==> r.1 == UpdateMetadata(TrailOf(s, cells, active), cells)
    ensures isCode && IndexOf(s, active).Some? ==> r.1 == UpdateMetadata(s[IndexOf(s, active).value], cells)
  {
    if !isCode then (s, cells)
    else
      var (s1, k) := GetMouseActions(s, cells, active);
      (s1, UpdateMetadata(s1[k], cells))
  }

  /** After a stop, a fresh load of the active cell's metadata yields the
      record as it stood, whenever the cell is in the notebook. */
  lemma StopPersists(s: Store, cells: seq<Cell>, active: CellId)
    requires exists j :: 0 <= j < |cells| && cells[j].id == active
    ensures UpdateFromMetadata(Trail(active, NoFields), Stop(s, cells, active, true).1)
         == (TrailOf(s, cells, active), true)
  {
    MetadataRoundTrip(TrailOf(s, cells, active), Trail(active, NoFields), cells);
  }

  /** The store part of the reset button: the active record is reset and the
      empty record persisted. */
  function ResetCell(s: Store, cells: seq<Cell>, active: CellId): (r: (Store, seq<Cell>))
    ensures IndexOf(r.0, active).Some? && r.0[IndexOf(r.0, active).value].f == NoFields
    ensures |r.0| >= |s| && forall j :: 0 <= j < |s| && s[j].id != active ==> r.0[j] == s[j]
    ensures |r.0| == |s| + (if IndexOf(s, active).None? then 1 else 0)
    ensures IdsExtend(s, r.0)
    ensures r.1 == UpdateMetadata(Reset(TrailOf(s, cells, active)), cells)
  {
    var (s1, k) := GetMouseActions(s, cells, active);
    (Put(s1, active, Reset(s1[k])), UpdateMetadata(Reset(s1[k]), cells))
  }

  lemma ResetCellKeeps(s: Store, cells: seq<Cell>, active: CellId)
    requires UniqueIds(s) && AllAligned(s) && SavedAligned(cells)
    ensures UniqueIds(ResetCell(s, cells, active).0) && AllAligned(ResetCell(s, cells, active).0)
    ensures SavedAligned(ResetCell(s, cells, active).1)
  {
    GetMouseActionsKeepsUnique(s, cells, active);
    GetMouseActionsAligned(s, cells, active);
    UpdateMetadataKeepsAligned(Reset(TrailOf(s, cells, active)), cells);
  }

  /** After a reset, a fresh load of the cell's metadata yields an empty trail. */
  lemma ResetPersistsEmpty(s: Store, cells: seq<Cell>, active: CellId)
    requires exists j :: 0 <= j < |cells| && cells[j].id == active
    ensures UpdateFromMetadata(Trail(active, NoFields), ResetCell(s, cells, active).1)
         == (Trail(active, NoFields), true)
  {
    MetadataRoundTrip(Reset(TrailOf(s, cells, active)), Trail(active, NoFields), cells);
  }
}

=== FILE: scheduler.dfy ===
/** The Replay Scheduler: the paired queues, the two flags, and the timer loop
    of `dispatchEvents` that replays one trail event per 25 ms tick. */
module Scheduler {
  import opened Base
  import opened Dom
  import opened Trails
  import opened Store
  import Recorder

  /** Delay between two replay ticks, in milliseconds. */
  const StepDelay := 25

  /** One live timer loop of `dispatchEvents`: the cell whose record it reads
      (the record itself is re-read at every tick, as the source holds a
      reference to it), the output-area node, the event index `i` and the
      click index `mouseClickIndex`. */
  datatype Loop = Loop(id: CellId, node: Path, i: nat, clickIndex: nat)

  /** What one tick did: an event synthesised (the target is the element it
      was dispatched on, `None` when `elementFromPoint` found nothing and
      nothing was dispatched), or a tick that threw and killed its loop. */
  datatype Replayed =
    | Replayed(cell: CellId, index: nat, kind: EventKind, x: real, y: real, target: Option<Path>)
    | Faulted(cell: CellId, index: nat)

  /** `queuedMouseActions`, `queuedEventsElement`, `isDispatchingEvents`,
      `isCallingBack`, the pending loops, and the log of ticks. */
  datatype Sched = Sched(ids: seq<CellId>, nodes: seq<Path>, dispatching: bool, callingBack: bool,
                         loops: seq<Loop>, log: seq<Replayed>)

  const Idle := Sched([], [], false, false, [], [])

  /** The two queues are pushed and shifted together. */
  predicate QueueAligned(s: Sched) {
    |s.ids| == |s.nodes|
  }

  /** The two flags are only ever set together. */
  predicate FlagsEqual(s: Sched) {
    s.dispatching == s.callingBack
  }

  /** At most one loop is pending, and only while dispatching. */
  predicate SingleFlight(s: Sched) {
    |s.loops| <= 1 && (|s.loops| == 1 ==> s.dispatching)
  }

  /** The push pair of the execution coordinator. */
  function Enqueue(s: Sched, id: CellId, node: Path): (r: Sched)
    ensures QueueAligned(s) ==> QueueAligned(r)
    ensures r.ids == s.ids + [id] && r.nodes == s.nodes + [node]
    ensures r.dispatching == s.dispatching && r.callingBack == s.callingBack
    ensures r.loops == s.loops && r.log == s.log
  {
    s.(ids := s.ids + [id], nodes := s.nodes + [node])
  }

  /** `dispatchEvents`: with a non-empty queue, set both flags, shift the head
      pair, look the record up (creating and hydrating it when absent), reload
      it from the metadata, and start a loop at event 0; with an empty queue,
      clear both flags. */
  function DispatchEvents(s: Sched, store: Store, cells: seq<Cell>): (r: (Sched, Store))
    requires QueueAligned(s)
    ensures QueueAligned(r.0) && FlagsEqual(r.0) && r.0.log == s.log
    ensures |s.ids| == 0 ==> r == (s.(dispatching := false, callingBack := false), store)
    ensures |s.ids| > 0 ==>
      r.0.dispatching && r.0.ids == s.ids[1..] && r.0.nodes == s.nodes[1..]
      && r.0.loops == s.loops + [Loop(s.ids[0], s.nodes[0], 0, 0)]
      && IndexOf(r.1, s.ids[0]).Some? && |r.1| >= |store|
      && r.1[IndexOf(r.1, s.ids[0]).value] == UpdateFromMetadata(TrailOf(store, cells, s.ids[0]), cells).0
      && (forall j :: 0 <= j < |store| && store[j].id != s.ids[0] ==> r.1[j] == store[j])
      && |r.1| == |store| + (if IndexOf(store, s.ids[0]).None? then 1 else 0)
    ensures IdsExtend(store, r.1)
  {
    if |s.ids| == 0 then (s.(dispatching := false, callingBack := false), store)
    else
      var id := s.ids[0];
      var (s1, k) := GetMouseActions(store, cells, id);
      var t := UpdateFromMetadata(s1[k], cells).0;
      (Sched(s.ids[1..], s.nodes[1..], true, true, s.loops + [Loop(id, s.nodes[0], 0, 0)], s.log),
       Put(s1, id, t))
  }

  /** What a successful tick synthesises. */
  datatype Event = Event(x: real, y: real, target: Option<Path>)

  /** `node.children[ci].getElementsByClassName('jp-OutputArea-output')[0]`
      as a path of `doc`; `None` where the replay reads a property of
      `undefined`: the node is gone, `ci` is out of range, or the child holds
      no output element. */
  function OutputOf(doc: Element, node: Path, ci: nat): (r: Option<Path>)
    ensures r.None? <==> (Get(doc, node).None? || ci >= |Get(doc, node).value.children|
                          || FirstByClass(Get(doc, node).value.children[ci], OutputClass).None?)
    ensures r.Some? ==> r.value == node + [ci] + FirstByClass(Get(doc, node).value.children[ci], OutputClass).value
    ensures r.Some? ==> HasClass(doc, r.value, OutputClass)
  {
    match Get(doc, node)
    case None => None
    case Some(n) =>
      if ci >= |n.children| then None
      else match FirstByClass(n.children[ci], OutputClass)
        case None => None
        case Some(rel) =>
          assert Get(n, [ci] + rel) == Get(n.children[ci], rel) by { assert ([ci] + rel)[1..] == rel; }
          GetAppend(doc, node, [ci] + rel);
          assert node + [ci] + rel == node + ([ci] + rel);
          Some(node + [ci] + rel)
  }

  /** One event of a non-exhausted trail resolved against the current DOM:
      the output element of child `childIndex[i]` of the node; a click or
      dblclick descends the click's stored trail from there and is dispatched
      on the element reached, at the fixed offset `clientLeft + scrollLeft + 1`
      (and `clientTop + scrollTop + 1`); any other event is placed by the
      stored fractions of the output's current box and dispatched on what the
      hit test finds there. `None` where the tick reads a property of
      `undefined` and throws: the child index is `undefined`, the output
      element cannot be found, or a click has no stored trail left or its
      trail leaves the tree. */
  function ResolveEvent(doc: Element, l: Loop, f: Fields, hit: (real, real) -> Option<Path>): (r: Option<Event>)
    requires l.i < |f.types| && Aligned(f)
    ensures r.None? <==>
      (f.childIndex[l.i].None? || OutputOf(doc, l.node, f.childIndex[l.i].value).None?
       || (IsClick(f.types[l.i])
           && (l.clickIndex >= |f.clickTrails|
               || Descend(Get(doc, OutputOf(doc, l.node, f.childIndex[l.i].value).value).value,
                          f.clickTrails[l.clickIndex]).None?)))
    ensures r.Some? && IsClick(f.types[l.i]) ==>
      var d := OutputOf(doc, l.node, f.childIndex[l.i].value).value + Reverse(f.clickTrails[l.clickIndex]);
      Get(doc, d).Some? && r.value.target == Some(d)
      && r.value.x == Get(doc, d).value.offsets.clientLeft + Get(doc, d).value.offsets.scrollLeft + 1.0
      && r.value.y == Get(doc, d).value.offsets.clientTop + Get(doc, d).value.offsets.scrollTop + 1.0
    ensures r.Some? && !IsClick(f.types[l.i]) ==>
      var o := Get(doc, OutputOf(doc, l.node, f.childIndex[l.i].value).value).value;
      r.value.x == Recorder.Abs(f.xs[l.i], o.box.left, o.box.width)
      && r.value.y == Recorder.Abs(f.ys[l.i], o.box.top, o.box.height)
      && r.value.target == hit(r.value.x, r.value.y)
  {
    match f.childIndex[l.i]
    case None => None
    case Some(ci) =>
      match OutputOf(doc, l.node, ci)
      case None => None
      case Some(outPath) =>
        var o := Get(doc, outPath).value;
        if IsClick(f.types[l.i]) then
          if l.clickIndex >= |f.clickTrails| then None
          else match Descend(o, f.clickTrails[l.clickIndex])
            case None => None
            case Some(d) =>
              GetAppend(doc, outPath, d);
              var e := Get(o, d).value;
              Some(Event(e.offsets.clientLeft + e.offsets.scrollLeft + 1.0,
                         e.offsets.clientTop + e.offsets.scrollTop + 1.0, Some(outPath + d)))
        else
          var x := Recorder.Abs(f.xs[l.i], o.box.left, o.box.width);
          var y := Recorder.Abs(f.ys[l.i], o.box.top, o.box.height);
          Some(Event(x, y, hit(x, y)))
  }

  /** Placement round trip: an event other than a click, stored as fractions
      of a box `b`, is replayed exactly at the recorded client point whenever
      the output element it resolves to has the box `b` again. */
  lemma ReplayLandsAtRecordedPoint(doc: Element, l: Loop, f: Fields, hit: (real, real) -> Option<Path>,
                                   clientX: real, clientY: real, b: Box)
    requires l.i < |f.types| && Aligned(f) && !IsClick(f.types[l.i]) && Proper(b)
    requires f.xs[l.i] == Recorder.Rel(clientX, b.left, b.width)
    requires f.ys[l.i] == Recorder.Rel(clientY, b.top, b.height)
    requires f.childIndex[l.i].Some? && OutputOf(doc, l.node, f.childIndex[l.i].value).Some?
    requires Get(doc, OutputOf(doc, l.node, f.childIndex[l.i].value).value).value.box == b
    ensures ResolveEvent(doc, l, f, hit) == Some(Event(clientX, clientY, hit(clientX, clientY)))
  {
    Recorder.AbsInvertsRel(clientX, b.left, b.width);
    Recorder.AbsInvertsRel(clientY, b.top, b.height);
  }

  /** Record-then-replay round trip of a mousedown: the event `recordMouseDown`
      appends, replayed at any later tick against an output element with the
      box it was measured against, is dispatched at the recorded client
      position. */
  lemma MouseDownReplaysAtItsPoint(r: Recorder.Rec, cells: seq<Cell>, doc: Element, active: CellId,
                                   ev: Recorder.Pointer, doc2: Element, node: Path, c: nat,
                                   hit: (real, real) -> Option<Path>)
    requires Recorder.RecOk(r, cells) && IsElement(doc, ev.target) && Recorder.ResolvesProper(doc, ev.target)
    requires Recorder.OutputAreaRect(doc, ev.target).Found?
    requires var rect := Recorder.OutputAreaRect(doc, ev.target);
      OutputOf(doc2, node, rect.index).Some? && Get(doc2, OutputOf(doc2, node, rect.index).value).value.box == rect.box
    ensures var store := Recorder.RecordMouseDown(r, cells, doc, false, active, ev).store;
      IndexOf(store, active).Some?
      && var f := store[IndexOf(store, active).value].f;
      |f.types| > 0 && Aligned(f) && f.types[|f.types| - 1] == MouseDown
      && ResolveEvent(doc2, Loop(active, node, |f.types| - 1, c), f, hit)
         == Some(Event(ev.clientX, ev.clientY, hit(ev.clientX, ev.clientY)))
  {
    Recorder.MouseDownKeepsRecOk(r, cells, doc, false, active, ev);
    var rect := Recorder.OutputAreaRect(doc, ev.target);
    var store := Recorder.RecordMouseDown(r, cells, doc, false, active, ev).store;
    var f := store[IndexOf(store, active).value].f;
    ReplayLandsAtRecordedPoint(doc2, Loop(active, node, |f.types| - 1, c), f, hit, ev.clientX, ev.clientY, rect.box);
  }

  /** Record-then-replay round trip of a drag move: the event `recordMouseMove`
      appends against the anchor box, under the last recorded child index,
      replayed against an output element with the anchor's box, is dispatched
      at the recorded client position. */
  lemma MouseMoveReplaysAtItsPoint(r: Recorder.Rec, cells: seq<Cell>, active: CellId, ev: Recorder.Pointer,
                                   doc2: Element, node: Path, c: nat, hit: (real, real) -> Option<Path>)
    requires Recorder.RecOk(r, cells) && r.drag.listening
    requires var ci := Recorder.LastIndex(TrailOf(r.store, cells, active).f);
      ci.Some? && OutputOf(doc2, node, ci.value).Some?
      && Get(doc2, OutputOf(doc2, node, ci.value).value).value.box == r.drag.anchor.value
    ensures var store := Recorder.DocumentMouseMove(r, cells, false, active, ev).store;
      IndexOf(store, active).Some?
      && var f := store[IndexOf(store, active).value].f;
      |f.types| > 0 && Aligned(f) && f.types[|f.types| - 1] == MouseMove
      && ResolveEvent(doc2, Loop(active, node, |f.types| - 1, c), f, hit)
         == Some(Event(ev.clientX, ev.clientY, hit(ev.clientX, ev.clientY)))
  {
    Recorder.MouseMoveKeepsRecOk(r, cells, false, active, ev);
    var store := Recorder.DocumentMouseMove(r, cells, false, active, ev).store;
    var f := store[IndexOf(store, active).value].f;
    ReplayLandsAtRecordedPoint(doc2, Loop(active, node, |f.types| - 1, c), f, hit, ev.clientX, ev.clientY,
                               r.drag.anchor.value);
  }

  /** The record a loop reads, present in the store. */
  predicate Reads(store: Store, l: Loop) {
    IndexOf(store, l.id).Some? && Aligned(store[IndexOf(store, l.id).value].f)
  }

  /** The pending loops without loop `k`. */
  function Without(loops: seq<Loop>, k: nat): (r: seq<Loop>)
    requires k < |loops|
    ensures |r| == |loops| - 1
    ensures forall j :: 0 <= j < |r| ==> r[j] in loops
  {
    loops[..k] + loops[k + 1..]
  }

  /** Loop `k` ticks. An exhausted trail removes the loop and calls
      `dispatchEvents` for the next queue entry; otherwise the event at `i` is
      resolved and logged and the loop advances, or the tick throws: the loop
      dies and both flags stay as they are. */
  function Tick(s: Sched, k: nat, store: Store, cells: seq<Cell>, doc: Element,
                hit: (real, real) -> Option<Path>): (r: (Sched, Store))
    requires QueueAligned(s) && k < |s.loops| && Reads(store, s.loops[k])
    ensures QueueAligned(r.0) && IdsExtend(store, r.1)
    ensures FlagsEqual(s) ==> FlagsEqual(r.0)
    ensures var l := s.loops[k];
      var f := store[IndexOf(store, l.id).value].f;
      l.i >= |f.types| ==> r == DispatchEvents(s.(loops := Without(s.loops, k)), store, cells)
    ensures var l := s.loops[k];
      var f := store[IndexOf(store, l.id).value].f;
      l.i < |f.types| ==>
        r.1 == store && r.0.ids == s.ids && r.0.nodes == s.nodes
        && r.0.dispatching == s.dispatching && r.0.callingBack == s.callingBack
        && |r.0.log| == |s.log| + 1 && r.0.log[..|s.log|] == s.log
        && r.0.log[|s.log|].cell == l.id && r.0.log[|s.log|].index == l.i
  {
    var l := s.loops[k];
    var f := store[IndexOf(store, l.id).value].f;
    if l.i >= |f.types| then DispatchEvents(s.(loops := Without(s.loops, k)), store, cells)
    else match ResolveEvent(doc, l, f, hit)
      case None => (s.(loops := Without(s.loops, k), log := s.log + [Faulted(l.id, l.i)]), store)
      case Some(e) =>
        var kind := f.types[l.i];
        var l' := l.(i := l.i + 1, clickIndex := l.clickIndex + (if IsClick(kind) then 1 else 0));
        (s.(loops := s.loops[k := l'], log := s.log + [Replayed(l.id, l.i, kind, e.x, e.y, e.target)]), store)
  }

  /** A tick of a non-exhausted trail whose event does not resolve throws:
      the fault is logged and the loop is gone, nothing else changes. */
  lemma TickFaults(s: Sched, k: nat, store: Store, cells: seq<Cell>, doc: Element,
                   hit: (real, real) -> Option<Path>)
    requires QueueAligned(s) && k < |s.loops| && Reads(store, s.loops[k])
    requires var l := s.loops[k]; var f := store[IndexOf(store, l.id).value].f;
      l.i < |f.types| && ResolveEvent(doc, l, f, hit).None?
    ensures var l := s.loops[k];
      Tick(s, k, store, cells, doc, hit) == (s.(loops := Without(s.loops, k), log := s.log + [Faulted(l.id, l.i)]), store)
  {
  }

  /** A tick of a non-exhausted trail whose event resolves logs it with its
      kind and synthesised position and target, and moves the loop to the next
      event, and to the next descent trail after a click or dblclick. */
  lemma TickReplays(s: Sched, k: nat, store: Store, cells: seq<Cell>, doc: Element,
                    hit: (real, real) -> Option<Path>)
    requires QueueAligned(s) && k < |s.loops| && Reads(store, s.loops[k])
    requires var l := s.loops[k]; var f := store[IndexOf(store, l.id).value].f;
      l.i < |f.types| && ResolveEvent(doc, l, f, hit).Some?
    ensures var l := s.loops[k];
      var f := store[IndexOf(store, l.id).value].f;
      var e := ResolveEvent(doc, l, f, hit).value;
      var kind := f.types[l.i];
      Tick(s, k, store, cells, doc, hit)
        == (s.(loops := s.loops[k := l.(i := l.i + 1, clickIndex := l.clickIndex + (if IsClick(kind) then 1 else 0))],
               log := s.log + [Replayed(l.id, l.i, kind, e.x, e.y, e.target)]), store)
  {
  }

  // ------------------------------------------------------------ invariants

  /** A loop has not run past its trail and has consumed one descent trail per
      click or dblclick it replayed, unless its record has been emptied under
      it (the reset button), in which case its next tick finds the trail
      exhausted. */
  predicate LoopConsistent(store: Store, l: Loop) {
    Reads(store, l)
    && var f := store[IndexOf(store, l.id).value].f;
    |f.types| == 0 || (l.i <= |f.types| && l.clickIndex == ClickCount(f.types[..l.i]))
  }

  /** The log ends with the ticks of the pending loop, in event order. */
  predicate LogFollowsLoop(s: Sched) {
    |s.loops| == 1 ==>
      var l := s.loops[0];
      |s.log| >= l.i && forall j :: |s.log| - l.i <= j < |s.log| ==>
        s.log[j].Replayed? && s.log[j].cell == l.id && s.log[j].index == j - (|s.log| - l.i)
  }

  /** What the scheduler keeps true between ticks. */
  predicate SchedOk(s: Sched, store: Store) {
    QueueAligned(s) && FlagsEqual(s) && SingleFlight(s) && LogFollowsLoop(s)
    && forall k :: 0 <= k < |s.loops| ==> LoopConsistent(store, s.loops[k])
  }

  lemma ClickCountPrefix(s: seq<EventKind>, i: nat)
    requires i < |s|
    ensures ClickCount(s[..i + 1]) == ClickCount(s[..i]) + (if IsClick(s[i]) then 1 else 0)
  {
    assert s[..i + 1] == s[..i] + [s[i]];
    ClickCountAppend(s[..i], s[i]);
  }

  /** A drain start keeps the scheduler invariant. */
  lemma DispatchEventsKeeps(s: Sched, store: Store, cells: seq<Cell>)
    requires QueueAligned(s) && |s.loops| == 0
    requires AllAligned(store) && SavedAligned(cells)
    ensures var r := DispatchEvents(s, store, cells);
      SchedOk(r.0, r.1) && AllAligned(r.1)
  {
    if |s.ids| > 0 {
      var id := s.ids[0];
      GetMouseActionsAligned(store, cells, id);
      var (s1, k) := GetMouseActions(store, cells, id);
      assert Aligned(UpdateFromMetadata(s1[k], cells).0.f);
    }
  }

  /** Every tick keeps the scheduler invariant: the queues stay paired, the
      flags equal, at most one loop pending, the loop within its trail with one
      descent trail consumed per replayed click, and the log in event order. */
  lemma TickKeeps(s: Sched, k: nat, store: Store, cells: seq<Cell>, doc: Element,
                  hit: (real, real) -> Option<Path>)
    requires SchedOk(s, store) && k < |s.loops| && AllAligned(store) && SavedAligned(cells)
    ensures var r := Tick(s, k, store, cells, doc, hit);
      SchedOk(r.0, r.1) && AllAligned(r.1)
  {
    var l := s.loops[k];
    var f := store[IndexOf(store, l.id).value].f;
    assert k == 0 && s.loops[..k] + s.loops[k + 1..] == [];
    if l.i >= |f.types| {
      DispatchEventsKeeps(s.(loops := []), store, cells);
    } else {
      ClickCountPrefix(f.types, l.i);
      var r := Tick(s, k, store, cells, doc, hit);
      if r.0.log[|s.log|].Replayed? {
        AdvanceKeepsLog(s, r.0, l);
      }
    }
  }

  /** Appending the tick of event `i` to the log of a loop at `i` gives the log
      of the loop at `i + 1`. */
  lemma AdvanceKeepsLog(s: Sched, s': Sched, l: Loop)
    requires LogFollowsLoop(s) && s.loops == [l]
    requires |s'.loops| == 1 && s'.loops[0].id == l.id && s'.loops[0].i == l.i + 1
    requires |s'.log| == |s.log| + 1 && s'.log[..|s.log|] == s.log
    requires s'.log[|s.log|].Replayed? && s'.log[|s.log|].cell == l.id && s'.log[|s.log|].index == l.i
    ensures LogFollowsLoop(s')
  {
    forall j | |s'.log| - (l.i + 1) <= j < |s'.log|
      ensures s'.log[j].Replayed? && s'.log[j].cell == l.id && s'.log[j].index == j - (|s'.log| - (l.i + 1))
    {
      if j < |s.log| {
        assert s'.log[j] == s.log[j];
      }
    }
  }

  /** The `k`-th click or dblclick of a trail is replayed with its `k`-th
      descent trail: at the event index `i` of a click, the loop's click index
      counts the clicks before `i`, and the tick dispatches the click on the
      element that trail reaches from the resolved output element. */
  lemma ClickConsumesItsTrail(s: Sched, store: Store, cells: seq<Cell>, doc: Element,
                              hit: (real, real) -> Option<Path>)
    requires SchedOk(s, store) && |s.loops| == 1
    requires var l := s.loops[0]; var f := store[IndexOf(store, l.id).value].f;
      l.i < |f.types| && IsClick(f.types[l.i]) && ResolveEvent(doc, l, f, hit).Some?
    ensures var l := s.loops[0]; var f := store[IndexOf(store, l.id).value].f;
      var n := ClickCount(f.types[..l.i]);
      l.clickIndex == n && n < |f.clickTrails|
      && var target := Some(OutputOf(doc, l.node, f.childIndex[l.i].value).value + Reverse(f.clickTrails[n]));
      ResolveEvent(doc, l, f, hit).value.target == target
      && Tick(s, 0, store, cells, doc, hit).0.log[|s.log|].target == target
  {
    TickReplays(s, 0, store, cells, doc, hit);
  }

  // ------------------------------------------------------------ draining

  /** The DOM and the `elementFromPoint` oracle one tick sees. */
  datatype Step = Step(doc: Element, hit: (real, real) -> Option<Path>)

  /** The drain with nothing else happening: the pending loop ticks once per
      step until no loop is pending or the steps run out. */
  function Drain(s: Sched, store: Store, cells: seq<Cell>, steps: seq<Step>): (r: (Sched, Store))
    requires SchedOk(s, store) && AllAligned(store) && SavedAligned(cells)
    ensures SchedOk(r.0, r.1) && AllAligned(r.1)
    ensures |r.0.log| >= |s.log| && r.0.log[..|s.log|] == s.log
    decreases |steps|
  {
    if |s.loops| == 0 || |steps| == 0 then (s, store)
    else
      var t := Tick(s, 0, store, cells, steps[0].doc, steps[0].hit);
      TickKeeps(s, 0, store, cells, steps[0].doc, steps[0].hit);
      var r := Drain(t.0, t.1, cells, steps[1..]);
      assert r.0.log[..|s.log|] == r.0.log[..|t.0.log|][..|s.log|];
      r
  }

  /** Where a drain of `a` then `b` stands, counting log entries from `n0`:
      either `b` still waits in the queue behind `a`'s loop and every new
      entry is `a`'s, or `b` has been shifted and no entry of `a` follows an
      entry of `b`. */
  predicate Stage(s: Sched, a: CellId, b: CellId, n0: nat) {
    n0 <= |s.log|
    && (forall p, q :: n0 <= p < q < |s.log| && s.log[p].cell == b ==> s.log[q].cell == b)
    && ((s.ids == [b] && (forall j :: 0 <= j < |s.loops| ==> s.loops[j].id == a)
         && forall j :: n0 <= j < |s.log| ==> s.log[j].cell == a)
        || (s.ids == [] && forall j :: 0 <= j < |s.loops| ==> s.loops[j].id == b))
  }

  lemma TickKeepsStage(s: Sched, store: Store, cells: seq<Cell>, st: Step, a: CellId, b: CellId, n0: nat)
    requires SchedOk(s, store) && AllAligned(store) && SavedAligned(cells) && |s.loops| > 0
    requires Stage(s, a, b, n0)
    ensures Stage(Tick(s, 0, store, cells, st.doc, st.hit).0, a, b, n0)
  {
    var l := s.loops[0];
    var f := store[IndexOf(store, l.id).value].f;
    var r := Tick(s, 0, store, cells, st.doc, st.hit).0;
    if l.i < |f.types| {
      if ResolveEvent(st.doc, l, f, st.hit).None? {
        TickFaults(s, 0, store, cells, st.doc, st.hit);
      } else {
        TickReplays(s, 0, store, cells, st.doc, st.hit);
      }
      assert forall j :: n0 <= j < |s.log| ==> r.log[j] == s.log[j];
    }
  }

  lemma DrainKeepsStage(s: Sched, store: Store, cells: seq<Cell>, steps: seq<Step>, a: CellId, b: CellId, n0: nat)
    requires SchedOk(s, store) && AllAligned(store) && SavedAligned(cells)
    requires Stage(s, a, b, n0)
    ensures Stage(Drain(s, store, cells, steps).0, a, b, n0)
    decreases |steps|
  {
    if |s.loops| > 0 && |steps| > 0 {
      var t := Tick(s, 0, store, cells, steps[0].doc, steps[0].hit);
      TickKeeps(s, 0, store, cells, steps[0].doc, steps[0].hit);
      TickKeepsStage(s, store, cells, steps[0], a, b, n0);
      DrainKeepsStage(t.0, t.1, cells, steps[1..], a, b, n0);
    }
  }

  /** Replays run in execution order: two code cells `a` then `b` settled
      while the scheduler was idle (the first settle starts the drain, the
      second only pushes), then drained by any ticks: no log entry of `a`
      follows an entry of `b`. */
  lemma ReplaysRunInQueueOrder(s0: Sched, store: Store, cells: seq<Cell>, a: CellId, na: Path,
                               b: CellId, nb: Path, steps: seq<Step>)
    requires s0.ids == [] && s0.nodes == [] && s0.loops == [] && !s0.dispatching && !s0.callingBack
    requires a != b && AllAligned(store) && SavedAligned(cells)
    ensures var d := DispatchEvents(Enqueue(s0, a, na), store, cells);
      SchedOk(Enqueue(d.0, b, nb), d.1) && AllAligned(d.1)
      && var r := Drain(Enqueue(d.0, b, nb), d.1, cells, steps).0;
      forall p, q :: |s0.log| <= p < q < |r.log| && r.log[p].cell == b ==> r.log[q].cell != a
  {
    var d := DispatchEvents(Enqueue(s0, a, na), store, cells);
    DispatchEventsKeeps(Enqueue(s0, a, na), store, cells);
    var s1 := Enqueue(d.0, b, nb);
    assert d.0.loops == [Loop(a, na, 0, 0)] && d.0.ids == [];
    assert Stage(s1, a, b, |s0.log|);
    DrainKeepsStage(s1, d.1, cells, steps, a, b, |s0.log|);
  }

  /** A worked scenario: a mousedown recorded at fractions (0.1, 0.1) of output 0,
      replayed where that output's box is {left 100, top 50, width 200,
      height 100}, is synthesised at (120, 60). */
  lemma ScenarioMouseDownAt120x60(hit: (real, real) -> Option<Path>)
    ensures
      var out := Element({OutputClass}, Box(100.0, 50.0, 200.0, 100.0), Offsets(0.0, 0.0, 0.0, 0.0), []);
      var child := Element({ChildClass}, Box(100.0, 50.0, 200.0, 100.0), Offsets(0.0, 0.0, 0.0, 0.0), [out]);
      var area := Element({}, Box(0.0, 0.0, 800.0, 600.0), Offsets(0.0, 0.0, 0.0, 0.0), [child]);
      var doc := Element({}, Box(0.0, 0.0, 800.0, 600.0), Offsets(0.0, 0.0, 0.0, 0.0), [area]);
      var f := Fields([MouseDown, MouseUp], [0.1, 0.1], [0.1, 0.1], [Some(0), Some(0)], []);
      ResolveEvent(doc, Loop("c1", [0], 0, 0), f, hit) == Some(Event(120.0, 60.0, hit(120.0, 60.0)))
      && ResolveEvent(doc, Loop("c1", [0], 1, 0), f, hit) == Some(Event(120.0, 60.0, hit(120.0, 60.0)))
  {
    var out := Element({OutputClass}, Box(100.0, 50.0, 200.0, 100.0), Offsets(0.0, 0.0, 0.0, 0.0), []);
    var child := Element({ChildClass}, Box(100.0, 50.0, 200.0, 100.0), Offsets(0.0, 0.0, 0.0, 0.0), [out]);
    var area := Element({}, Box(0.0, 0.0, 800.0, 600.0), Offsets(0.0, 0.0, 0.0, 0.0), [child]);
    var doc := Element({}, Box(0.0, 0.0, 800.0, 600.0), Offsets(0.0, 0.0, 0.0, 0.0), [area]);
    assert FirstByClass(child, OutputClass) == Some([0]);
    assert Get(doc, [0]) == Some(area);
    assert Get(doc, [0, 0, 0]) == Some(out) by {
      assert [0, 0, 0][1..] == [0, 0];
      assert [0, 0][1..] == [0];
    }
    assert [0] + [0] + [0] == [0, 0, 0];
    assert Recorder.Abs(0.1, 100.0, 200.0) == 120.0;
    assert Recorder.Abs(0.1, 50.0, 100.0) == 60.0;
  }
}

=== FILE: store.dfy ===
/** The Trail Store: the process-wide list `mouseActionsArray` of records. */
module Store {
  import opened Base
  import opened Trails

  type Store = seq<Trail>

  /** Position of the first record with id `id`, as the lookup loops find it. */
  function IndexOf(s: Store, id: CellId): (r: Option<nat>)
    ensures r.Some? ==> (r.value < |s| && s[r.value].id == id
                         && forall j :: 0 <= j < r.value ==> s[j].id != id)
    ensures r.None? <==> forall j :: 0 <= j < |s| ==> s[j].id != id
  {
    if s == [] then None
    else if s[0].id == id then Some(0)
    else match IndexOf(s[1..], id)
      case None =>
        assert forall j :: 1 <= j < |s| ==> s[j] == s[1..][j - 1];
        None
      case Some(k) => Some(k + 1)
  }

  /** No two records share an id. */
  predicate UniqueIds(s: Store) {
    forall i, j :: 0 <= i < j < |s| ==> s[i].id != s[j].id
  }

  /** `s'` keeps every record of `s` at its position under the same id, and may
      have more after them. */
  predicate IdsExtend(s: Store, s': Store) {
    |s'| >= |s| && forall j :: 0 <= j < |s| ==> s'[j].id == s[j].id
  }

  /** Lookups of ids already present answer the same position once the ids
      have been extended. */
  lemma IndexOfExtended(s: Store, s': Store, id: CellId)
    requires IdsExtend(s, s') && IndexOf(s, id).Some?
    ensures IndexOf(s', id) == IndexOf(s, id)
  {
    assert s'[IndexOf(s, id).value].id == id;
  }

  /** Every record holds aligned per-event sequences. */
  predicate AllAligned(s: Store) {
    forall i :: 0 <= i < |s| ==> Aligned(s[i].f)
  }

  /** `containsMouseActions`: a linear scan for the id. */
  method ContainsMouseActions(s: Store, id: CellId) returns (found: bool)
    ensures found <==> exists j :: 0 <= j < |s| && s[j].id == id
  {
    found := false;
    var i := 0;
    while i < |s| && !found
      invariant 0 <= i <= |s|
      invariant forall j :: 0 <= j < i ==> s[j].id != id
      invariant found ==> i < |s| && s[i].id == id
      decreases |s| - i, if found then 0 else 1
    {
      if s[i].id == id {
        found := true;
      } else {
        i := i + 1;
      }
    }
  }

  /** `getMouseActions`: the existing record for `id`, or else a new record
      hydrated from the metadata and appended. Answers the new store and the
      position of the record. */
  function GetMouseActions(s: Store, cells: seq<Cell>, id: CellId): (r: (Store, nat))
    ensures r.1 < |r.0| && r.0[r.1].id == id
    ensures IndexOf(s, id).Some? ==> r.0 == s && r.1 == IndexOf(s, id).value
    ensures IndexOf(s, id).None? ==> r.0 == s + [Hydrate(id, cells)] && r.1 == |s|
    ensures IndexOf(r.0, id) == Some(r.1)
    ensures IdsExtend(s, r.0) && r.0[..|s|] == s
  {
    match IndexOf(s, id)
    case Some(k) => (s, k)
    case None =>
      var s' := s + [Hydrate(id, cells)];
      assert s'[|s|].id == id;
      (s', |s|)
  }

  /** The record of `id` after a lookup (existing or freshly hydrated). */
  function TrailOf(s: Store, cells: seq<Cell>, id: CellId): Trail
  {
    var r := GetMouseActions(s, cells, id);
    r.0[r.1]
  }

  /** Replaces the record of `id` (present) by `t`, which has the same id. */
  function Put(s: Store, id: CellId, t: Trail): (r: Store)
    requires IndexOf(s, id).Some? && t.id == id
    ensures |r| == |s|
    ensures forall j :: 0 <= j < |s| ==> r[j].id == s[j].id
    ensures r[IndexOf(s, id).value] == t
    ensures forall j :: 0 <= j < |s| && s[j].id != id ==> r[j] == s[j]
    ensures IdsExtend(s, r)
  {
    s[IndexOf(s, id).value := t]
  }

  /** A lookup keeps ids unique, and afterwards the id is present. */
  lemma {:induction false} GetMouseActionsKeepsUnique(s: Store, cells: seq<Cell>, id: CellId)
    requires UniqueIds(s)
    ensures UniqueIds(GetMouseActions(s, cells, id).0)
    ensures exists j :: 0 <= j < |GetMouseActions(s, cells, id).0| && GetMouseActions(s, cells, id).0[j].id == id
  {
    var r := GetMouseActions(s, cells, id);
    assert r.0[r.1].id == id;
    if IndexOf(s, id).None? {
      forall i, j | 0 <= i < j < |r.0| ensures r.0[i].id != r.0[j].id {
        if j == |s| {
          assert r.0[i] == s[i];
        } else {
          assert r.0[i] == s[i] && r.0[j] == s[j];
        }
      }
    }
  }

  /** A lookup never alters the records already present. */
  lemma GetMouseActionsExtends(s: Store, cells: seq<Cell>, id: CellId)
    ensures |GetMouseActions(s, cells, id).0| >= |s|
    ensures GetMouseActions(s, cells, id).0[..|s|] == s
    ensures |GetMouseActions(s, cells, id).0| <= |s| + 1
  {
  }

  lemma GetMouseActionsAligned(s: Store, cells: seq<Cell>, id: CellId)
    requires AllAligned(s) && SavedAligned(cells)
    ensures AllAligned(GetMouseActions(s, cells, id).0)
  {
    HydrateAligned(id, cells);
  }

  lemma PutKeepsUnique(s: Store, id: CellId, t: Trail)
    requires IndexOf(s, id).Some? && t.id == id && UniqueIds(s)
    ensures UniqueIds(Put(s, id, t))
    ensures IndexOf(Put(s, id, t), id) == IndexOf(s, id)
  {
  }

  lemma PutAligned(s: Store, id: CellId, t: Trail)
    requires IndexOf(s, id).Some? && t.id == id && AllAligned(s) && Aligned(t.f)
    ensures AllAligned(Put(s, id, t))
  {
  }

  /** A reset record persisted and then looked up again from a store that has
      forgotten it reloads empty. */
  lemma {:induction false} ResetThenReload(t: Trail, cells: seq<Cell>)
    requires exists j :: 0 <= j < |cells| && cells[j].id == t.id
    ensures TrailOf([], UpdateMetadata(Reset(t), cells), t.id).f == NoFields
  {
    MetadataRoundTrip(Reset(t), Trail(t.id, NoFields), cells);
  }

  /** Persisting a record and looking it up afresh reproduces its sequences. */
  lemma {:induction false} PersistThenReload(t: Trail, cells: seq<Cell>)
    requires exists j :: 0 <= j < |cells| && cells[j].id == t.id
    ensures TrailOf([], UpdateMetadata(t, cells), t.id) == t
  {
    MetadataRoundTrip(t, Trail(t.id, NoFields), cells);
  }
}

=== FILE: tags.dfy ===
/** The cell-tag helpers: tag tests, the comic frame width and height tags. */
module Tags {
  import opened Base

  const ComicTag := "comic"
  const IntermediateTag := "intermediate"
  const ImgTag := "img"
  const BottomTag := "bottom"
  const StackTag := "stack"
  const FullTag := "full"
  const HalfTag := "half"
  const ThirdTag := "third"
  const TwoThirdTag := "twothird"

  /** A cell's `tags` metadata: `None` when the key is absent (or the cell is
      `undefined`). */
  type Tags = Option<seq<string>>

  /** `tags.find((tag) => tag == t)` is found (none of the tags looked for is empty, so a
      found tag is truthy). */
  function Has(tags: Tags, t: string): (b: bool)
    ensures b <==> tags.Some? && t in tags.value
  {
    match tags
    case None => false
    case Some(ts) => Find(ts, t)
  }

  function Find(ts: seq<string>, t: string): (b: bool)
    ensures b <==> t in ts
  {
    if ts == [] then false else ts[0] == t || Find(ts[1..], t)
  }

  /** `IsComicCell`: tagged comic or intermediate. */
  predicate IsComicCell(tags: Tags) { Has(tags, ComicTag) || Has(tags, IntermediateTag) }
  /** `IsIntermediateCell`. */
  predicate IsIntermediateCell(tags: Tags) { Has(tags, IntermediateTag) }
  /** `IsImageCell`. */
  predicate IsImageCell(tags: Tags) { Has(tags, ImgTag) }
  /** `IsBottomMarkdown`. */
  predicate IsBottomMarkdown(tags: Tags) { Has(tags, BottomTag) }
  /** `IsMarkdownStacked`. */
  predicate IsMarkdownStacked(tags: Tags) { Has(tags, StackTag) }

  /** Every intermediate cell counts as a comic cell. */
  lemma IntermediateIsComic(tags: Tags)
    ensures IsIntermediateCell(tags) ==> IsComicCell(tags)
    ensures IsComicCell(tags) <==> tags.Some? && (ComicTag in tags.value || IntermediateTag in tags.value)
  {
  }

  /** `getComicWidth`: the width tag in priority full > half > third >
      twothird, `None` (`undefined`) when none is present. */
  function ComicWidth(tags: Tags): (r: Option<string>)
    ensures r.Some? ==> Has(tags, r.value)
    ensures r == Some(FullTag) <==> Has(tags, FullTag)
    ensures r == Some(HalfTag) <==> Has(tags, HalfTag) && !Has(tags, FullTag)
    ensures r == Some(ThirdTag) <==> Has(tags, ThirdTag) && !Has(tags, FullTag) && !Has(tags, HalfTag)
    ensures r == Some(TwoThirdTag) <==>
      Has(tags, TwoThirdTag) && !Has(tags, FullTag) && !Has(tags, HalfTag) && !Has(tags, ThirdTag)
    ensures r.None? <==>
      !Has(tags, FullTag) && !Has(tags, HalfTag) && !Has(tags, ThirdTag) && !Has(tags, TwoThirdTag)
  {
    if Has(tags, FullTag) then Some(FullTag)
    else if Has(tags, HalfTag) then Some(HalfTag)
    else if Has(tags, ThirdTag) then Some(ThirdTag)
    else if Has(tags, TwoThirdTag) then Some(TwoThirdTag)
    else None
  }

  /** The width `set_frameStyle` gives the notebook cell for a width tag:
      anything but full, third and twothird, `undefined` included, is 50%. */
  function FrameWidth(widthTag: Option<string>): string
  {
    if widthTag == Some(FullTag) then "100%"
    else if widthTag == Some(ThirdTag) then "33.3%"
    else if widthTag == Some(TwoThirdTag) then "66.6%"
    else "50%"
  }

  /** A cell tagged half, or with no width tag, is framed at 50%; a full tag
      wins over every other width tag, and third and twothird frame at 33.3%
      and 66.6% when no tag of higher priority is present. */
  lemma FrameWidthDefaults(tags: Tags)
    ensures !Has(tags, FullTag) && !Has(tags, ThirdTag) && !Has(tags, TwoThirdTag) ==>
      FrameWidth(ComicWidth(tags)) == "50%"
    ensures Has(tags, HalfTag) && !Has(tags, FullTag) ==> FrameWidth(ComicWidth(tags)) == "50%"
    ensures Has(tags, FullTag) ==> FrameWidth(ComicWidth(tags)) == "100%"
    ensures Has(tags, ThirdTag) && !Has(tags, FullTag) && !Has(tags, HalfTag) ==>
      FrameWidth(ComicWidth(tags)) == "33.3%"
    ensures Has(tags, TwoThirdTag) && !Has(tags, FullTag) && !Has(tags, HalfTag) && !Has(tags, ThirdTag) ==>
      FrameWidth(ComicWidth(tags)) == "66.6%"
  {
  }

  /** Position of the first occurrence of `c` in `s`. */
  function IndexOfChar(s: string, c: char): (r: Option<nat>)
    ensures r.Some? ==> r.value < |s| && s[r.value] == c && c !in s[..r.value]
    ensures r.None? <==> c !in s
  {
    if s == [] then None
    else if s[0] == c then Some(0)
    else match IndexOfChar(s[1..], c)
      case None => None
      case Some(k) =>
        assert s[..k + 1] == [s[0]] + s[1..][..k];
        Some(k + 1)
  }

  /** The first occurrence is unique. */
  lemma FirstOccurrence(s: string, c: char, k: nat)
    requires k < |s| && s[k] == c && c !in s[..k]
    ensures IndexOfChar(s, c) == Some(k)
  {
    assert s[k] in s;
  }

  /** `s.split(':')[1]`: the text between the first and the second ':' (or the
      end), `None` (`undefined`) when `s` has no ':'. */
  function SecondField(s: string): (r: Option<string>)
    ensures r.None? <==> ':' !in s
    ensures r.Some? ==> (':' !in r.value
                         && exists k :: 0 <= k < |s| && s[k] == ':' && ':' !in s[..k]
                                        && (s[k + 1..] == r.value || StartsWith(s[k + 1..], r.value + ":")))
  {
    match IndexOfChar(s, ':')
    case None => None
    case Some(k) =>
      var rest := s[k + 1..];
      match IndexOfChar(rest, ':')
      case None =>
        assert rest[..|rest|] == rest;
        Some(rest)
      case Some(j) =>
        assert rest[..j + 1] == rest[..j] + ":";
        Some(rest[..j])
  }

  predicate StartsWith(s: string, prefix: string) {
    |s| >= |prefix| && s[..|prefix|] == prefix
  }

  /** `getComicHeight`: the second ':'-field of the first tag starting with
      "height"; "" when there is no such tag (or no tags); `None`
      (`undefined`) when that tag has no ':'. */
  function ComicHeight(tags: Tags): (r: Option<string>)
    ensures (tags.None? || forall i :: 0 <= i < |tags.value| ==> !StartsWith(tags.value[i], "height")) ==> r == Some("")
    ensures tags.Some? ==> forall i :: (0 <= i < |tags.value| && StartsWith(tags.value[i], "height")
                                       && forall j :: 0 <= j < i ==> !StartsWith(tags.value[j], "height"))
                                      ==> r == SecondField(tags.value[i])
  {
    match tags
    case None => Some("")
    case Some(ts) => HeightFrom(ts)
  }

  function HeightFrom(ts: seq<string>): (r: Option<string>)
    ensures (forall i :: 0 <= i < |ts| ==> !StartsWith(ts[i], "height")) ==> r == Some("")
    ensures forall i :: (0 <= i < |ts| && StartsWith(ts[i], "height")
                         && forall j :: 0 <= j < i ==> !StartsWith(ts[j], "height"))
                        ==> r == SecondField(ts[i])
  {
    if ts == [] then Some("")
    else if StartsWith(ts[0], "height") then SecondField(ts[0])
    else
      var r := HeightFrom(ts[1..]);
      assert forall i :: 1 <= i < |ts| ==> ts[i] == ts[1..][i - 1];
      r
  }

  /** A tag "height:100px" after a comic tag gives the height "100px". */
  lemma HeightExample()
    ensures ComicHeight(Some(["comic", "height:100px"])) == Some("100px")
  {
    var ts := ["comic", "height:100px"];
    assert !StartsWith("comic", "height");
    assert StartsWith("height:100px", "height");
    assert ts[1..] == ["height:100px"];
    assert HeightFrom(ts) == HeightFrom(["height:100px"]);
    assert HeightFrom(["height:100px"]) == SecondField("height:100px");
    var h := "height:100px";
    assert h[6] == ':' && h[..6] == "height";
    FirstOccurrence(h, ':', 6);
    assert h[7..] == "100px";
    assert ':' !in "100px";
  }

  /** A bare "height" tag gives `undefined`. */
  lemma BareHeightIsUndefined()
    ensures ComicHeight(Some(["height"])) == None
  {
    assert StartsWith("height", "height");
    assert HeightFrom(["height"]) == SecondField("height");
    assert ':' !in "height";
  }
}

=== FILE: trail.dfy ===
/** The Action Trail (`MouseActions`) and its persisted form in cell metadata. */
module Trails {
  import opened Base

  type CellId = string

  /** The value of `event.type` for the events the recorder listens to. */
  datatype EventKind = Click | DblClick | MouseDown | MouseMove | MouseUp

  predicate IsClick(k: EventKind) {
    k == Click || k == DblClick
  }

  /** Number of click/dblclick events in `s`. */
  function ClickCount(s: seq<EventKind>): nat
  {
    if s == [] then 0 else ClickCount(s[..|s| - 1]) + (if IsClick(s[|s| - 1]) then 1 else 0)
  }

  lemma ClickCountAppend(s: seq<EventKind>, k: EventKind)
    ensures ClickCount(s + [k]) == ClickCount(s) + (if IsClick(k) then 1 else 0)
  {
    assert (s + [k])[..|s|] == s;
  }

  /** The five parallel sequences of one trail, under their metadata keys
      `mouseEventType`, `relativeMousePosXArray`, `relativeMousePosYArray`,
      `childIndexArray` and `mouseClickTrails`. A child index is `None` where
      the recorder pushed `undefined`. */
  datatype Fields = Fields(
    types: seq<EventKind>,
    xs: seq<real>,
    ys: seq<real>,
    childIndex: seq<Option<nat>>,
    clickTrails: seq<seq<nat>>)

  const NoFields := Fields([], [], [], [], [])

  /** The four per-event sequences have one entry per event. */
  predicate Aligned(f: Fields) {
    |f.xs| == |f.types| && |f.ys| == |f.types| && |f.childIndex| == |f.types|
  }

  /** One descent trail per click/dblclick event. */
  predicate ClicksAligned(f: Fields) {
    |f.clickTrails| == ClickCount(f.types)
  }

  /** A `MouseActions` record: the cell id and its sequences. */
  datatype Trail = Trail(id: CellId, f: Fields)

  /** `MouseActions.reset`: all five sequences emptied, the id kept. */
  function Reset(t: Trail): (r: Trail)
    ensures r.id == t.id && Aligned(r.f) && ClicksAligned(r.f)
    ensures |r.f.types| == 0 && |r.f.clickTrails| == 0
  {
    t.(f := NoFields)
  }

  /** One notebook cell as the metadata layer sees it: its id and, when the cell
      carries the `mouseEventType` key, the five persisted sequences. */
  datatype Cell = Cell(id: CellId, saved: Option<Fields>)

  /** The first cell with id `id` is at `k`. */
  predicate FirstWithId(cells: seq<Cell>, id: CellId, k: nat) {
    k < |cells| && cells[k].id == id && forall j :: 0 <= j < k ==> cells[j].id != id
  }

  /** `MouseActions.updateMetadata`: the five sequences written onto the first
      cell whose id matches; nothing happens when no cell matches. */
  function UpdateMetadata(t: Trail, cells: seq<Cell>): (r: seq<Cell>)
    ensures |r| == |cells|
    ensures forall j :: 0 <= j < |cells| ==> r[j].id == cells[j].id
    ensures (forall j :: 0 <= j < |cells| ==> cells[j].id != t.id) ==> r == cells
    ensures forall k: nat :: FirstWithId(cells, t.id, k) ==>
      r[k].saved == Some(t.f) && forall j :: 0 <= j < |cells| && j != k ==> r[j] == cells[j]
  {
    if cells == [] then []
    else if cells[0].id == t.id then [cells[0].(saved := Some(t.f))] + cells[1..]
    else
      var rest := UpdateMetadata(t, cells[1..]);
      assert forall k: nat :: FirstWithId(cells, t.id, k) ==> k >= 1 && FirstWithId(cells[1..], t.id, k - 1);
      [cells[0]] + rest
  }

  /** The first cell with id `id` that carries the persisted sequences is at `k`. */
  predicate FirstSaved(cells: seq<Cell>, id: CellId, k: nat) {
    k < |cells| && cells[k].id == id && cells[k].saved.Some?
    && forall j :: 0 <= j < k ==> !(cells[j].id == id && cells[j].saved.Some?)
  }

  /** `MouseActions.updateFromMetadata`: the sequences are replaced by those of
      the first cell that has the right id AND carries `mouseEventType`, and the
      answer is `true`; otherwise the trail is unchanged and the answer `false`. */
  function UpdateFromMetadata(t: Trail, cells: seq<Cell>): (r: (Trail, bool))
    ensures r.0.id == t.id
    ensures r.1 <==> exists j :: 0 <= j < |cells| && cells[j].id == t.id && cells[j].saved.Some?
    ensures !r.1 ==> r.0 == t
    ensures r.1 ==> exists k: nat :: FirstSaved(cells, t.id, k) && cells[k].saved == Some(r.0.f)
  {
    if cells == [] then (t, false)
    else if cells[0].id == t.id && cells[0].saved.Some? then (t.(f := cells[0].saved.value), true)
    else
      var r := UpdateFromMetadata(t, cells[1..]);
      assert r.1 ==> exists k: nat :: FirstSaved(cells, t.id, k) && cells[k].saved == Some(r.0.f) by {
        if r.1 {
          var k: nat :| FirstSaved(cells[1..], t.id, k) && cells[1..][k].saved == Some(r.0.f);
          assert cells[k + 1] == cells[1..][k];
          forall j | 0 <= j < k + 1 ensures !(cells[j].id == t.id && cells[j].saved.Some?) {
            if j > 0 { assert cells[j] == cells[1..][j - 1]; }
          }
          assert FirstSaved(cells, t.id, k + 1);
        }
      }
      assert (exists j :: 0 <= j < |cells| && cells[j].id == t.id && cells[j].saved.Some?) ==> r.1 by {
        if exists j :: 0 <= j < |cells| && cells[j].id == t.id && cells[j].saved.Some? {
          var j :| 0 <= j < |cells| && cells[j].id == t.id && cells[j].saved.Some?;
          assert j > 0 && cells[1..][j - 1] == cells[j];
        }
      }
      r
  }

  /** Metadata round trip: once a trail has been written, reading it back into
      any trail with the same id restores the five sequences exactly and reports
      success, provided some cell has that id. */
  lemma {:induction false} MetadataRoundTrip(t: Trail, other: Trail, cells: seq<Cell>)
    requires other.id == t.id
    requires exists j :: 0 <= j < |cells| && cells[j].id == t.id
    ensures UpdateFromMetadata(other, UpdateMetadata(t, cells)) == (t, true)
  {
    if cells[0].id == t.id {
      assert UpdateMetadata(t, cells)[0] == cells[0].(saved := Some(t.f));
    } else {
      var j :| 0 <= j < |cells| && cells[j].id == t.id;
      assert cells[1..][j - 1].id == t.id;
      MetadataRoundTrip(t, other, cells[1..]);
      assert UpdateMetadata(t, cells) == [cells[0]] + UpdateMetadata(t, cells[1..]);
      assert UpdateMetadata(t, cells)[1..] == UpdateMetadata(t, cells[1..]);
    }
  }

  /** With no cell carrying the id, writing is a no-op and reading fails and
      leaves the trail as it was. */
  lemma NoCellNoMetadata(t: Trail, cells: seq<Cell>)
    requires forall j :: 0 <= j < |cells| ==> cells[j].id != t.id
    ensures UpdateMetadata(t, cells) == cells
    ensures UpdateFromMetadata(t, cells) == (t, false)
  {
  }

  /** A trail built fresh for `id` and hydrated from the metadata, as
      `getMouseActions` builds one when the id is not yet in the store. */
  function Hydrate(id: CellId, cells: seq<Cell>): (t: Trail)
    ensures t.id == id
    ensures (forall j :: 0 <= j < |cells| ==> !(cells[j].id == id && cells[j].saved.Some?)) ==> t.f == NoFields
    ensures forall k: nat :: FirstSaved(cells, id, k) ==> t.f == cells[k].saved.value
  {
    var r := UpdateFromMetadata(Trail(id, NoFields), cells);
    forall k: nat | FirstSaved(cells, id, k) ensures r.0.f == cells[k].saved.value {
      var k': nat :| FirstSaved(cells, id, k') && cells[k'].saved == Some(r.0.f);
      FirstSavedUnique(cells, id, k, k');
    }
    r.0
  }

  /** There is only one first saved cell. */
  lemma FirstSavedUnique(cells: seq<Cell>, id: CellId, k: nat, k': nat)
    requires FirstSaved(cells, id, k) && FirstSaved(cells, id, k')
    ensures k == k'
  {
  }

  /** Every persisted trail has aligned per-event sequences. */
  predicate SavedAligned(cells: seq<Cell>) {
    forall j :: 0 <= j < |cells| && cells[j].saved.Some? ==> Aligned(cells[j].saved.value)
  }

  lemma UpdateMetadataKeepsAligned(t: Trail, cells: seq<Cell>)
    requires SavedAligned(cells) && Aligned(t.f)
    ensures SavedAligned(UpdateMetadata(t, cells))
  {
    var r := UpdateMetadata(t, cells);
    if k: nat :| FirstWithId(cells, t.id, k) {
      assert forall j :: 0 <= j < |cells| && j != k ==> r[j] == cells[j];
    }
  }

  lemma HydrateAligned(id: CellId, cells: seq<Cell>)
    requires SavedAligned(cells)
    ensures Aligned(Hydrate(id, cells).f)
  {
  }
}
